=== FILE: README.md ===
# echo-svelte scaffolder: a Dafny model of its orchestration core

echo-svelte is a command-line tool. It creates an Echo (Go) backend with a
Vite/Svelte frontend in a project directory. This project models the part
of the tool that makes decisions and proves properties of it. That part is:

- **Directory resolution and validation** (`ProjectConfig.Validate`,
  `ValidatePath`, `CreateDirectory`). A relative `--dir` is resolved against
  the working directory. Each leading `../` walks up one level with Go's
  `path.Dir`, and the rest is combined with `path.Join`. Any other `--dir`
  must be readable and empty. Go's lexical path functions are modelled
  exactly on absolute paths, with a clean absolute path as a list of names
  (module `GoPath`).
- **The command pipeline** (`FileManager.Init`, `goTidy`, `viteBuild`). Every
  external command is a `CommandStep` value: program, arguments, working
  directory, time budget and the two phrases of its error messages. Steps run
  in order and the first failure stops the run (modules `Pipeline`, `Files`).
  Whether a command succeeds is an input.
- **The defaults** (`FileManager.ApplyDefaults`):
  - main.go is created with truncation.
  - vite.config.js is written at offset 0 without truncation.
  - package.json gains two entries in its "scripts" object (modules `Files`,
    `Json`, `Sys`).
  - `go mod tidy` and the frontend build then run.
- **Formatting** (module `GoFmt`). `fmt.Sprintf(":%4.v", port)` gives the
  port string. Each of the two templates in global.go has a single `%v` hole
  (module `Templates`).
- **`main`** (module `App`). The rights probe comes first. Dev mode skips
  every stage. Otherwise Validate, InstallModule and ApplyDefaults run in
  order, and each is fatal on error.

The operating system is an `Env` record of oracles:
- the working directory (`os.Getwd`);
- directory listings (`os.ReadDir`);
- the result of `os.MkdirAll`;
- the outcome of each command;
- the error, if any, of each file call;
- JSON decoding and encoding.

Every call the program makes is appended to a trace in a `World` value. The
`World` also holds the contents of the files the program reads and writes.
Two definitions give the OS model its meaning and carry no claim of their
own: `Sys.ExecSteps` runs a command list fail-fast and records the commands
that started, and `Sys.Call` records a file call and fails it when the
`fault` oracle says so or, for a call that needs the file, when it is
missing.

Files: `wrappers.dfy`, `gopath.dfy`, `gofmt.dfy`, `templates.dfy`,
`pipeline.dfy` (modules `Errors`, `Pipeline`), `json.dfy`, `sys.dfy`,
`files.dfy`, `project.dfy`, `app.dfy`.

### Behaviour of the code that the model follows

The model follows the Go code as written, including in these places where
its behaviour may surprise a user.

- **An absolute `--dir`.** An existing, empty directory passes validation,
  but `Files` stays nil, so `InstallModule` then fails with "file manager is
  uninitialized". Such a run never completes (`App.AbsoluteDirNeverCompletes`).
- **vite.config.js.** It is opened with `O_RDWR` only; `os.ModeAppend` there
  is a permission bit, not `O_APPEND`. The template therefore overwrites the
  start of the file and older bytes beyond its length remain
  (`Sys.OverwriteAt0`). The file is not appended to.
- **`os.MkdirAll` and `os.ErrExist`.** `CreateDirectory` checks emptiness only
  when `MkdirAll` returns an error equal to `os.ErrExist`. Any other error is
  ignored and a file manager is set anyway. The real `MkdirAll` returns nil for
  an existing directory, so with a real file system the emptiness check is
  never reached on this path. The model keeps the comparison as written, with
  `MkdirAll`'s result as an input.
- **Opening package.json for rewriting.** When this fails, the error message
  names vite.config.js (`fm.configPath()`), not package.json. The model builds
  that message.
- **Port 0.** `%4.v` has precision 0, so port 0 prints no digits at all:
  `":    "` (`GoFmt.PortStringZero`).

## Model

| member | source | states |
|---|---|---|
| GoPath.ParseRender | project_config.go:104-109 | A clean absolute path, written out as a string, reads back as the same list of names. |
| GoPath.RenderInjective | file_manager.go:263-276 | Two clean absolute paths have the same string form exactly when they are the same path. |
| GoPath.CleanRender | project_config.go:104-109 | `path.Clean` leaves the string of a clean absolute path unchanged. |
| GoPath.DirRender | project_config.go:104 | `path.Dir` of a clean absolute path is its parent; the parent of "/" is "/". |
| GoPath.JoinRender | project_config.go:107-109 | `path.Join` onto a clean absolute path processes the joined elements one by one: "" and "." change nothing, ".." moves up (never above "/"), and a name is appended. |
| GoPath.JoinName | file_manager.go:263-276 | Joining a single name appends it as a new last segment. |
| GoFmt.SprintfOneHole | file_manager.go:86 | `Sprintf` of a format whose only '%' is one `%v` is prefix, then operand, then suffix. |
| GoFmt.PortString | project_config.go:88 | The port string is ':' followed by the port's digits right-justified with spaces to width 4; wider numbers are not cut. |
| GoFmt.PortStringRoundTrip | project_config.go:88 | Every port string reads back as the integer it was made from, negative ones included. |
| GoFmt.PortStringDefault | project_config.go:88 | 8080 gives ":8080" and 3000 gives ":3000". |
| GoFmt.PortStringShort | project_config.go:88 | 80 gives ":  80". |
| GoFmt.PortStringZero | project_config.go:88 | 0 gives ":    ", because precision 0 prints no digits for zero. |
| GoFmt.PortStringWide | project_config.go:88 | 65535 gives ":65535", with no padding. |
| Templates.OneHoleEach | global.go:4-48 | The only '%' in each template is its `%v` hole. |
| Templates.Backend | global.go:4-29 | Rendering the backend template is the fixed prefix, then the port, then the fixed suffix. |
| Templates.ViteConfig | global.go:31-48 | Rendering the Vite template is the fixed prefix, then the port, then the fixed suffix. |
| Templates.RenderRoundTrip | global.go:4-48 | The port can be read back from either rendered text. |
| Templates.BackendListensOnPort | global.go:27 | The rendered backend contains `e.Start("` + port + `")`. |
| Templates.ViteProxiesToPort | global.go:40 | The rendered Vite config contains `'/api': 'http://localhost` + port + `'`. |
| Templates.BackendFixedText | global.go:16-19 | Whatever the port, the backend serves "dist" statically and routes "/api/hello". |
| Templates.ViteFixedText | global.go:44-45 | Whatever the port, the Vite config has outDir '../dist' and emptyOutDir true. |
| Templates.OutsideHoleIndependentOfPort | global.go:4-48 | The text before and after the hole is the same for any two ports. |
| Pipeline.StepError | file_manager.go:132-145 | A deadline gives "<label> timed out"; any other failure gives "failed to <action>: <detail>". |
| Pipeline.RunSteps | file_manager.go:28-43 | Steps start in order, and only a prefix of them starts. The run succeeds exactly when every step succeeds. Otherwise the last started step is the first failing one, and its error is returned. |
| Pipeline.RunStepsAppend | file_manager.go:28-43 | Running two lists one after the other equals running their concatenation. |
| Pipeline.RunAll | file_manager.go:164-197 | The table-driven form of the unrolled step blocks (run a command, return on its first error): the loop computes exactly `RunSteps`. |
| Json.PatchScripts | file_manager.go:107-110 | The patch applies exactly when "scripts" is an object. It sets "backend" and "dev:full" to the two fixed commands. Every other script and every other top-level key keep their values. |
| Json.PatchIdempotent | file_manager.go:107-110 | Applying the patch twice equals applying it once. |
| Json.PatchFixedPoint | file_manager.go:107-110 | A document is left unchanged exactly when both entries already hold the fixed commands. |
| Sys.ExecStepsFollowPlan | file_manager.go:28-43 | A non-empty command list records a non-empty prefix of its commands, in order, and all of them when it returns nil. |
| Sys.ExecStepsStops | file_manager.go:28-43 | A command list returns nil exactly when every command runs to completion. Otherwise the last command it started is the first one that did not complete. |
| Sys.StopsAtFirstFailureThen | file_manager.go:45-64 | When a stage makes all its calls and succeeds, the next stage's first failing call is the first failing call of the two together. |
| Sys.LastCallFailed | file_manager.go:45-64 | When a stage with a plan fails, its last recorded call is the planned call whose check failed, and every earlier check held. |
| Sys.ExecStepsAppend | file_manager.go:28-43 | Running two command lists one after the other equals running their concatenation, and stops after the first if it failed. |
| Sys.OverwriteAt0 | file_manager.go:67-72 | Writing at offset 0 without truncation: the text comes first, and older bytes beyond its length remain. |
| Sys.OverwriteExact | file_manager.go:67-72 | The file holds only the written text exactly when the old content was no longer than it. |
| Sys.OverwriteIdempotent | file_manager.go:67-72 | Writing the same text twice equals writing it once. |
| Files.PathHelpersBelowRoot | file_manager.go:263-276 | For a clean root, the frontend, config, package and main paths are the expected segments below it. |
| Files.PathHelpers | file_manager.go:263-276 | For a clean root, main.go, vite.config.js and package.json are three distinct paths. |
| Files.InstallStepsShape | file_manager.go:164-261 | Each step's working directory is the root, except the two npm installs, which run in root/frontend. The template is "svelte" or "svelte-ts". Across the nine steps (the seven install steps, `go mod tidy` and the build), no two share a timeout label and no two share a failure label. |
| Files.InitModule | file_manager.go:200-219 | An empty module name fails with no call. Otherwise one command runs. No file changes. |
| Files.InitVite | file_manager.go:221-261 | On success three commands were recorded. No file changes. |
| Files.InitPackages | file_manager.go:164-198 | On success three commands were recorded. No file changes. |
| Files.Init | file_manager.go:28-43 | Installation changes no file. On success the name was not empty and all seven commands were recorded. |
| Files.InitIsPipeline | file_manager.go:28-43 | An empty module name fails before any command. Otherwise `Init` is the single fail-fast pipeline of the seven install steps, in order. |
| Files.ApplyMainDefault | file_manager.go:80-91 | On success main.go holds exactly the rendered backend. It succeeds exactly when neither the create nor the write fails. A failed create returns "failed to create '<main.go>'" with the error it got, after that call only. A failed write returns "failed to update main.go", and main.go is left truncated to empty. |
| Files.UpdatePackage | file_manager.go:93-130 | It succeeds exactly when package.json exists, can be read, decodes, has a "scripts" object, and can be reopened and written. A missing file fails the read with "no such file or directory". Bad JSON gives "failed to unmarshal package.json". A missing or non-object "scripts" gives "failed to update scripts parameter in package.json". Both decode errors leave the file as it was, after the read only. A read fault on an existing file returns "failed to read package.json" with that fault, after the read only. A failed reopen returns the open error naming vite.config.js, as the Go code does, with no file changed. A failed write returns "failed to update package.json" and leaves package.json truncated to empty. On success the file holds the encoded, patched document. |
| Files.PackageStops | file_manager.go:93-130 | The package.json update stops right after its first call that fails, where the read fails also when decoding or the "scripts" check fails. |
| Files.ApplyViteDefault | file_manager.go:66-78 | The Vite stage: open vite.config.js without truncation, write the template at offset 0, then update package.json. A missing file, or a failed open, returns "failed to open '<vite.config.js>'" with that error, after the open only. A failed write returns "failed to update vite config" with no file changed. Its other properties are stated by Files.ViteStops, Files.ViteFollowsPlan and Files.ViteWrites. |
| Files.ConfigIsNotPackage | file_manager.go:263-272 | The two paths built from the frontend directory, vite.config.js and package.json, always name different files, so a write to one never touches the other. |
| Files.ViteWrites | file_manager.go:66-78 | On success vite.config.js holds the template written over its start, and package.json is patched. |
| Files.ViteStops | file_manager.go:66-78 | The Vite stage stops right after its first call that fails. It succeeds exactly when vite.config.js exists and can be opened and written, and the package.json update succeeds. |
| Files.ViteFollowsPlan | file_manager.go:66-78 | The Vite stage makes a non-empty prefix of its calls (open, write, then the package.json calls), and all of them on success. |
| Files.ApplyDefaults | file_manager.go:45-64 | main.go, then the Vite stage, then `go mod tidy`, then the build; the first error is returned. Its contract is stated by the next four rows. |
| Files.ApplyDefaultsFollowsPlan | file_manager.go:45-64 | The calls come in a fixed order: main.go, vite.config.js, package.json, tidy, build. Only a non-empty prefix of them is made, and all of them on success. |
| Files.ApplyDefaultsStops | file_manager.go:45-64 | The defaults stop right after the first planned call that fails, so the first error stops the rest. |
| Files.ApplyDefaultsFailsAt | file_manager.go:45-64 | On error, the calls made are a prefix of the plan, and the last one is the first planned call whose check fails. Every earlier call went through. |
| Files.ApplyDefaultsSucceeds | file_manager.go:45-162 | The defaults return nil exactly when main.go can be created and written; vite.config.js exists and can be opened and written; package.json exists, reads, decodes, has a "scripts" object and can be rewritten; and both commands complete. |
| Files.ApplyDefaultsWrites | file_manager.go:45-91 | On success the three files hold the rendered backend, the overwritten config and the patched manifest. No other file changes. |
| Project.StripParents | project_config.go:102-103 | The directory is some number of "../" followed by a remainder that does not start with "../". |
| Project.StripParentsOf | project_config.go:102-103 | Removing the leading "../" from n copies followed by a remainder gives back exactly n and that remainder. |
| Project.WalkUpRender | project_config.go:102-105 | n applications of `path.Dir` move n levels up, and stop at "/". |
| Project.Resolve | project_config.go:97-111 | The location `Validate` computes for a relative directory, as string operations. Its contract is stated by Project.ResolveIsClean, Project.ResolveName and Project.ResolveRelative. |
| Project.ResolveIsClean | project_config.go:97-111 | The resolved location is the string of a clean absolute path, given by its segment reference definition, so it is already clean. |
| Project.ResolveName | project_config.go:106-110 | After the walk: an empty remainder appends the project name, a plain remainder appends itself, and "./" adds nothing. |
| Project.ResolveExampleSub | project_config.go:102-109 | "../../sub" from /a/b/c resolves to /a/sub. |
| Project.ResolveExampleAboveRoot | project_config.go:102-109 | "../../../x" from /a resolves to /x. |
| Project.ResolveExampleHere | project_config.go:106-110 | "" from /a/b gives /a/b/app, and "./" gives /a/b. |
| Project.ResolveRelative | project_config.go:98-111 | The Go loop, which strips one "../" and takes one `path.Dir` per pass, computes the resolved location. |
| Project.ValidatePath | project_config.go:117-129 | An unreadable directory gives "the path … is invalid". A readable one with any entry gives "the project directory must be empty". Zero entries succeed. The only call is `ReadDir`, and the configuration is never changed. |
| Project.PathInvalidFormat | project_config.go:121 | The invalid-path message is its `%v` format filled with the directory. |
| Project.CreateDirectory | project_config.go:55-73 | `MkdirAll` is called first, and `ReadDir` follows exactly when it returned `os.ErrExist`. Only then can it fail: with "the path <dir> is invalid" when the directory cannot be read, with "the project directory must be empty" when it has entries, and with no error when it is empty. A manager at the directory is set exactly when the result was not `ErrExist`. Nothing else in the configuration changes. |
| Project.Validate | project_config.go:91-116 | Validation changes only the directory and the manager, and no file. A manager it sets is rooted at the directory it leaves. With a name and a relative directory, a failing `os.Getwd` returns "unable to get current path", with the configuration unchanged and only that call recorded. |
| Project.ValidateNameFirst | project_config.go:92-94 | An empty name fails with "project name is required", with no path work and no OS call. |
| Project.ValidateBranch | project_config.go:97-115 | With a name, the first OS call is `Getwd` exactly when the directory is empty or starts with ".". Otherwise it is `ReadDir` of the unchanged directory. |
| Project.ValidateRelative | project_config.go:97-112 | A relative directory is replaced by the resolved location, which `MkdirAll` is called on. A manager is set there unless the result was `ErrExist`. |
| Project.ValidateAbsolute | project_config.go:115-129 | Any other directory is only checked. It is never changed, no manager is set, and the only call is `ReadDir`. |
| Project.InstallModule | project_config.go:75-81 | Installation changes no file, and succeeds only with a manager and a non-empty name. |
| Project.InstallModuleGuard | project_config.go:75-81 | With no manager it fails with "file manager is uninitialized" and makes no call. With a manager, an empty name fails with "go module name cannot be empty" and makes no call. Otherwise the seven install commands run fail-fast. |
| Project.ApplyDefaults | project_config.go:83-89 | The defaults succeed only with a manager. |
| Project.ApplyDefaultsGuard | project_config.go:83-89 | With no manager it fails with "file manager is uninitialized" and makes no call. With a manager it makes a non-empty prefix of the defaults plan, and all of it on success. |
| App.Main | main.go:20-38 | The stages started are a prefix of Validate, InstallModule, ApplyDefaults. A failed rights probe stops before any stage, and dev mode runs none. |
| App.Chain | main.go:27-36 | Each stage is fatal on error: the first error ends the run with that error, the world that stage left, and the stages started so far. "Completed" is reached exactly when all three stages return nil, and then all three were started. |
| App.MainCompletes | main.go:20-38 | A run completes exactly when the rights probe succeeds, dev mode is off, and all three stages return nil. The world is then the one the defaults stage left. |
| App.Defaults | main.go:11-18 | The flag defaults are: no name, no directory, no TypeScript, no dev mode, port 8080 (":8080"). |
| App.NoFlagsNeedsName | main.go:27-29 | With no flags, the run stops in Validate with "project name is required". |
| App.AbsoluteDirNeverCompletes | main.go:27-32 | A named run with a directory that is not relative never completes. Its only call is `ReadDir`, so no command runs. It stops with "file manager is uninitialized" exactly when the directory is readable and empty. |
| App.CompletedNeedsRelative | main.go:27-36 | A completed run had a name and a relative directory. That directory was resolved and created, and a manager was set at the resolved location. |
| App.CompletedStages | main.go:27-36 | A completed run is `Init` and then the defaults, both succeeding on the manager at the resolved location. |
| App.ScaffoldTrace | file_manager.go:28-64 | When `Init` and the defaults both succeed, all seven install steps and all nine planned calls were made, in order. |
| App.ScaffoldMainGo | file_manager.go:80-91 | When the defaults succeed, main.go holds exactly the rendered backend. |
| App.CompletedRun | main.go:27-36 | A completed run made exactly `Getwd`, `MkdirAll`, the install steps and the defaults plan, in that order. main.go then holds the backend for the formatted port. |

## Left out

- `RunDevMode` (project_config.go:30-53) is left out because it relays the standard streams of a long-running `npm run dev:full`. `App.Main` ends with `DevRelay` and, like the source, ignores its result.
- `checkForRights` runs an external `cd` command. Its outcome is the `rights` parameter of `App.Main`.
- Flag parsing, console output and `log.Fatal`'s process exit are left out. The flag defaults are modelled (`App.DEFAULTS`), and a fatal error is the `Fatal` exit value.
- Running processes, contexts and deadlines are left out. Each step's outcome comes from the `run` oracle, and its time budget is kept only as data. The shared 5 s and 30 s contexts of `initVite` and `initPackages` are not modelled as shared clocks, and neither is how `err == context.DeadlineExceeded` behaves at run time.
- The disk contents that commands produce are left out: the scaffold's vite.config.js and package.json are part of the input `World`, and commands change no file in the model.
- JSON bytes are left out. `json.Unmarshal` and `json.Marshal` are oracles between text and a JSON tree, so key order, escaping and number conversion are not modelled.
- The `json.Marshal` error branch (file_manager.go:111-114) is left out, because encoding values that `Unmarshal` produced does not fail.
- Short writes and errors from the deferred `Close` are left out. A write either stores the whole text or fails, leaving the file as the open left it.
- `os.Getwd`, `os.ReadDir` and `os.MkdirAll` are inputs (`Env.cwd`, `Env.listing`, `Env.mkdir`), as described above.
- The current directory is assumed absolute and clean (`GoPath.CleanPath`). Go's `os.Getwd` may return `$PWD` unchanged, and that is not modelled.
- `GoFmt.Sprintf` models only `%v` and `%%` with one string operand, which is what the templates and the invalid-path message use. The messages with two operands (file_manager.go:69, 83, 118) and the command failures are built by `Errors.Failed`, not by `GoFmt.Sprintf`. Errors are modelled by their message text.
- The fields `ProjectName`, `Port` and `Typescript` that `FileManager` stores (file_manager.go:29-30, 46) are passed as parameters instead.
- Ports use Dafny's unbounded `int` rather than Go's 64-bit `int`; printing is the same for every 64-bit value.
- Project.CreateDirectory: requires an absolute directory, and a `FileManager` root is always absolute. Its only caller, `Validate`, always passes the resolved absolute location.

=== FILE: app.dfy ===
/**
 * main.go: the flag defaults and the top-level sequence of stages, each
 * fatal on error.
 */
module App {
  import opened Wrappers
  import opened Errors
  import opened Sys
  import opened Files
  import opened Project
  import GoPath
  import GoFmt
  import Templates
  import Json

  /** The configuration before any flag is given: no name, no directory, port 8080. */
  const DEFAULTS: Config := Config("", "", false, 8080, false, None)

  /** The three stages of a scaffolding run. */
  datatype Stage = ValidateStage | InstallStage | DefaultsStage

  const STAGES: seq<Stage> := [ValidateStage, InstallStage, DefaultsStage]

  /** How the program ends: `log.Fatal` with an error, "Completed", or after the dev relay. */
  datatype Exit = Fatal(err: Error) | Completed | DevRelay

  /** The exit, the world left behind, and the stages that were started. */
  datatype Run = Run(exit: Exit, world: World, stages: seq<Stage>)

  /**
   * `main`. `rights` is whether the privilege probe succeeded; the dev
   * relay is outside the model and its error is discarded.
   */
  function Main(cfg: Config, rights: bool, env: Env, w: World): (r: Run)
    ensures |r.stages| <= 3 && r.stages == STAGES[..|r.stages|]
    ensures !rights ==> r == Run(Fatal(NO_RIGHTS), w, [])
    ensures rights && cfg.devMode ==> r == Run(DevRelay, w, [])
  {
    if !rights then Run(Fatal(NO_RIGHTS), w, [])
    else if cfg.devMode then Run(DevRelay, w, [])
    else
      var v := Validate(cfg, env, w);
      var i := InstallModule(v.cfg, env, v.world);
      Chain(v, i, Project.ApplyDefaults(v.cfg, env, i.world))
  }

  /**
   * The three stages, each fatal on error: the first error ends the run
   * with the world that stage left, and the stages started so far.
   */
  function Chain(v: Outcome, i: Status, d: Status): (r: Run)
    ensures 1 <= |r.stages| <= 3 && r.stages == STAGES[..|r.stages|]
    ensures r.exit.Completed? <==> v.err.None? && i.err.None? && d.err.None?
    ensures r.exit.Completed? ==> r.stages == STAGES && r.world == d.world
    ensures r.exit.Fatal? <==> !r.exit.Completed?
    ensures v.err.Some? ==> r == Run(Fatal(v.err.value), v.world, [ValidateStage])
    ensures v.err.None? && i.err.Some? ==> r == Run(Fatal(i.err.value), i.world, [ValidateStage, InstallStage])
    ensures v.err.None? && i.err.None? && d.err.Some? ==> r.exit == Fatal(d.err.value) && r.world == d.world
  {
    if v.err.Some? then Run(Fatal(v.err.value), v.world, STAGES[..1])
    else if i.err.Some? then Run(Fatal(i.err.value), i.world, STAGES[..2])
    else if d.err.Some? then Run(Fatal(d.err.value), d.world, STAGES)
    else Run(Completed, d.world, STAGES)
  }


  /**
   * A run completes exactly when the privilege probe succeeds, no dev relay
   * is asked for, and validation, installation and the defaults all return
   * nil; the world is then the one the defaults stage left.
   */
  lemma MainCompletes(cfg: Config, rights: bool, env: Env, w: World)
    ensures var r := Main(cfg, rights, env, w);
      var v := Validate(cfg, env, w);
      var i := InstallModule(v.cfg, env, v.world);
      var d := Project.ApplyDefaults(v.cfg, env, i.world);
      r.exit.Completed? <==>
        && rights && !cfg.devMode
        && v.err.None? && i.err.None? && d.err.None?
        && r.stages == STAGES && r.world == d.world
  {
  }

  /** The flag defaults, and the port string they give. */
  lemma Defaults()
    ensures DEFAULTS.name == "" && DEFAULTS.directory == "" && DEFAULTS.port == 8080
    ensures !DEFAULTS.typescript && !DEFAULTS.devMode && DEFAULTS.files.None?
    ensures GoFmt.PortString(DEFAULTS.port) == ":8080"
  {
    GoFmt.PortStringDefault();
  }

  /** Run with no flags at all, the program stops at validation: the name is required. */
  lemma NoFlagsNeedsName(env: Env, w: World)
    ensures Main(DEFAULTS, true, env, w) == Run(Fatal(NAME_REQUIRED), w, [ValidateStage])
  {
  }

  /**
   * A directory that is not relative never completes: validation leaves no
   * file manager, so at best installation stops with "file manager is
   * uninitialized"; the only OS call is `os.ReadDir` and no command runs.
   */
  lemma AbsoluteDirNeverCompletes(cfg: Config, env: Env, w: World)
    requires |cfg.name| > 0 && !IsRelative(cfg.directory) && cfg.files.None? && !cfg.devMode
    ensures var r := Main(cfg, true, env, w);
      && r.exit.Fatal?
      && r.world.trace == w.trace + [ReadDir(cfg.directory)]
      && (r.exit.err == UNINITIALIZED <==> cfg.directory in env.listing && |env.listing[cfg.directory]| == 0)
  {
    ValidateAbsolute(cfg, env, w);
    assert PathInvalid(cfg.directory).text[0] == 't';
    assert UNINITIALIZED.text[0] == 'f';
    assert NOT_EMPTY.text[1] == 'h';
  }

  /** A run started from flags completes only from a relative directory that was created. */
  lemma CompletedNeedsRelative(cfg: Config, env: Env, w: World)
    requires cfg.files.None?
    ensures Main(cfg, true, env, w).exit.Completed? ==>
      && |cfg.name| > 0 && IsRelative(cfg.directory) && env.cwd.Some?
      && var loc := Resolve(env.cwd.value, cfg.name, cfg.directory);
         && env.mkdir(loc) != ErrExist
         && Validate(cfg, env, w).cfg == cfg.(directory := loc, files := Some(FileManager(loc)))
         && Validate(cfg, env, w).world.trace == w.trace + [Getwd, MkdirAll(loc)]
  {
    if |cfg.name| > 0 && !IsRelative(cfg.directory) {
      ValidateAbsolute(cfg, env, w);
    } else if |cfg.name| > 0 && env.cwd.Some? {
      ValidateRelative(cfg, env, w, env.cwd.value);
    }
  }

  /** A completed run from flags is `Init` and then the defaults, on the manager at the resolved location. */
  lemma CompletedStages(cfg: Config, env: Env, w: World)
    requires cfg.files.None?
    ensures var r := Main(cfg, true, env, w);
      r.exit.Completed? ==>
        && IsRelative(cfg.directory) && env.cwd.Some?
        && var loc := Resolve(env.cwd.value, cfg.name, cfg.directory);
           var fm := FileManager(loc);
           var i := Files.Init(fm, cfg.name, cfg.typescript, env, w.(trace := w.trace + [Getwd, MkdirAll(loc)]));
           var d := Files.ApplyDefaults(fm, GoFmt.PortString(cfg.port), env, i.world);
           && env.mkdir(loc) != ErrExist && |cfg.name| > 0
           && i.err.None? && d.err.None? && r.world == d.world
  {
    CompletedNeedsRelative(cfg, env, w);
  }

  /**
   * A completed run started from flags: the directory was resolved against
   * the working directory and created, every install step and every
   * planned default was made in order, and main.go holds the backend for
   * the formatted port.
   */
  lemma CompletedRun(cfg: Config, env: Env, w: World)
    requires cfg.files.None?
    ensures var r := Main(cfg, true, env, w);
      r.exit.Completed? ==>
        && IsRelative(cfg.directory) && env.cwd.Some?
        && var loc := Resolve(env.cwd.value, cfg.name, cfg.directory);
           var fm := FileManager(loc);
           && env.mkdir(loc) != ErrExist
           && r.world.trace == w.trace + [Getwd, MkdirAll(loc)]
                + Execs(InstallSteps(fm, cfg.name, cfg.typescript)) + DefaultsPlan(fm)
           && MainPath(fm) in r.world.disk
           && r.world.disk[MainPath(fm)] == Templates.Backend(GoFmt.PortString(cfg.port))
  {
    CompletedStages(cfg, env, w);
    if Main(cfg, true, env, w).exit.Completed? {
      var cwd := env.cwd.value;
      var loc := Resolve(cwd, cfg.name, cfg.directory);
      var fm := FileManager(loc);
      var w1 := w.(trace := w.trace + [Getwd, MkdirAll(loc)]);
      ScaffoldTrace(fm, cfg.name, cfg.typescript, GoFmt.PortString(cfg.port), env, w1);
      ResolveIsClean(cwd, cfg.name, cfg.directory);
      ScaffoldMainGo(fm, ResolveSegments(cwd, cfg.name, cfg.directory), cfg.name, cfg.typescript,
        GoFmt.PortString(cfg.port), env, w1);
    }
  }

  /** When `Init` and the defaults both succeed, every install step and every planned call was made, in order. */
  lemma ScaffoldTrace(fm: FileManager, name: string, typescript: bool, port: string, env: Env, w: World)
    requires |name| > 0
    ensures var i := Files.Init(fm, name, typescript, env, w);
      var d := Files.ApplyDefaults(fm, port, env, i.world);
      i.err.None? && d.err.None? ==>
        d.world.trace == w.trace + Execs(InstallSteps(fm, name, typescript)) + DefaultsPlan(fm)
  {
    InitIsPipeline(fm, name, typescript, env, w);
    var i := Files.Init(fm, name, typescript, env, w);
    ApplyDefaultsFollowsPlan(fm, port, env, i.world);
  }

  /** When the defaults succeed after `Init`, main.go holds exactly the rendered backend. */
  lemma ScaffoldMainGo(fm: FileManager, root: GoPath.CleanPath, name: string, typescript: bool, port: string, env: Env, w: World)
    requires fm.path == GoPath.Render(root)
    ensures var i := Files.Init(fm, name, typescript, env, w);
      var d := Files.ApplyDefaults(fm, port, env, i.world);
      d.err.None? ==> MainPath(fm) in d.world.disk && d.world.disk[MainPath(fm)] == Templates.Backend(port)
  {
    var i := Files.Init(fm, name, typescript, env, w);
    var d := Files.ApplyDefaults(fm, port, env, i.world);
    ApplyDefaultsWrites(fm, root, port, env, i.world);
    PathHelpers(fm, root);
    if d.err.None? {
      MainSurvives(i.world.disk, MainPath(fm), ConfigPath(fm), PackagePath(fm), Templates.Backend(port),
        Sys.OverwriteAt0(i.world.disk[ConfigPath(fm)], Templates.ViteConfig(port)),
        env.marshal(Json.PatchScripts(env.unmarshal(i.world.disk[PackagePath(fm)]).value).value));
    }
  }

  /** Writes to two other keys leave main.go as written; kept apart, this costs the caller far less. */
  lemma MainSurvives(disk: map<string, string>, m: string, c: string, p: string, x: string, y: string, z: string)
    requires m != c && m != p
    ensures m in disk[m := x][c := y][p := z] && disk[m := x][c := y][p := z][m] == x
  {
  }
}

=== FILE: files.dfy ===
/**
 * file_manager.go: the `FileManager` rooted at the project directory, the
 * commands of the install and build phases as `CommandStep` values, and the
 * template writes and package.json patch of `ApplyDefaults`.
 */
module Files {
  import opened Wrappers
  import opened Errors
  import opened Pipeline
  import opened Sys
  import GoPath
  import Json
  import Templates

  type RootedPath = s: string | GoPath.Rooted(s) witness "/"

  /** `NewFileManager(path)`: never fails. */
  datatype FileManager = FileManager(path: RootedPath)

  function FrontendPath(fm: FileManager): RootedPath
  {
    GoPath.Join(fm.path, "frontend")
  }

  function ConfigPath(fm: FileManager): RootedPath
  {
    GoPath.Join(FrontendPath(fm), "vite.config.js")
  }

  function PackagePath(fm: FileManager): RootedPath
  {
    GoPath.Join(FrontendPath(fm), "package.json")
  }

  function MainPath(fm: FileManager): RootedPath
  {
    GoPath.Join(fm.path, "main.go")
  }

  /** For a manager rooted at a clean path, the helpers name these paths below it. */
  lemma PathHelpersBelowRoot(fm: FileManager, root: GoPath.CleanPath)
    requires fm.path == GoPath.Render(root)
    ensures GoPath.Valid(root + ["frontend"]) && GoPath.Valid(root + ["main.go"])
    ensures GoPath.Valid(root + ["frontend"] + ["vite.config.js"]) && GoPath.Valid(root + ["frontend"] + ["package.json"])
    ensures FrontendPath(fm) == GoPath.Render(root + ["frontend"])
    ensures ConfigPath(fm) == GoPath.Render(root + ["frontend"] + ["vite.config.js"])
    ensures PackagePath(fm) == GoPath.Render(root + ["frontend"] + ["package.json"])
    ensures MainPath(fm) == GoPath.Render(root + ["main.go"])
  {
    FileNames();
    GoPath.JoinName(root, "frontend");
    GoPath.JoinName(root + ["frontend"], "vite.config.js");
    GoPath.JoinName(root + ["frontend"], "package.json");
    GoPath.JoinName(root, "main.go");
  }

  lemma FileNames()
    ensures GoPath.IsName("frontend") && GoPath.IsName("main.go")
    ensures GoPath.IsName("vite.config.js") && GoPath.IsName("package.json")
  {
    // A name has no '/'; the verifier checks that of a long literal much
    // faster in two slices than as a whole.
    assert "vite.config.js" == "vite.co" + "nfig.js";
    assert "package.json" == "packa" + "ge.json";
  }

  /** For a manager rooted at a clean path, the helpers name three distinct files below it. */
  lemma PathHelpers(fm: FileManager, root: GoPath.CleanPath)
    requires fm.path == GoPath.Render(root)
    ensures MainPath(fm) != ConfigPath(fm) && MainPath(fm) != PackagePath(fm)
    ensures ConfigPath(fm) != PackagePath(fm)
  {
    PathHelpersBelowRoot(fm, root);
    var fe := root + ["frontend"];
    var m, c, p := root + ["main.go"], fe + ["vite.config.js"], fe + ["package.json"];
    GoPath.RenderInjective(m, c);
    GoPath.RenderInjective(m, p);
    GoPath.RenderInjective(c, p);
    assert m[|root|] != c[|root|];
    assert m[|root|] != p[|root|];
    assert c[|root| + 1] != p[|root| + 1];
  }

  /** For any rooted manager path, vite.config.js and package.json are two different files. */
  lemma ConfigIsNotPackage(fm: FileManager)
    ensures ConfigPath(fm) != PackagePath(fm)
  {
    var q := GoPath.Parse(fm.path + "/" + "frontend");
    assert FrontendPath(fm) == GoPath.Render(q);
    FileNames();
    var c, p := q + ["vite.config.js"], q + ["package.json"];
    GoPath.JoinName(q, "vite.config.js");
    GoPath.JoinName(q, "package.json");
    GoPath.RenderInjective(c, p);
    assert c[|q|] != p[|q|];
  }

  // ---------------------------------------------------------------------
  // The commands
  // ---------------------------------------------------------------------

  /** The create-vite template: "svelte", with "-ts" appended for TypeScript, as the Go code builds it. */
  function TemplateName(typescript: bool): string
  {
    if typescript then "svelte" + "-ts" else "svelte"
  }

  function ModInit(fm: FileManager, name: string): CommandStep
  {
    CommandStep("go", ["mod", "init", name], fm.path, 10, "go module setup", "initialize go module")
  }

  function ViteCreate(fm: FileManager, typescript: bool): CommandStep
  {
    CommandStep("npm", ["create", "vite@latest", "frontend", "--", "--template", TemplateName(typescript)],
      fm.path, 5, "vite setup", "setup vite frontend")
  }

  function Concurrently(fm: FileManager): CommandStep
  {
    CommandStep("npm", ["install", "-D", "concurrently"], FrontendPath(fm), 5,
      "concurrently installation", "install concurrently package")
  }

  function NpmInstall(fm: FileManager): CommandStep
  {
    CommandStep("npm", ["install"], FrontendPath(fm), 5, "frontend installation", "install vite frontend")
  }

  function EchoGet(fm: FileManager): CommandStep
  {
    CommandStep("go", ["get", "github.com/labstack/echo/v4@latest"], fm.path, 30,
      "echo installation", "get echo package")
  }

  function MiddlewareGet(fm: FileManager): CommandStep
  {
    CommandStep("go", ["get", "github.com/labstack/echo/v4/middleware@latest"], fm.path, 30,
      "echo middleware installation", "get echo middleware package")
  }

  function AirInstall(fm: FileManager): CommandStep
  {
    CommandStep("go", ["install", "github.com/air-verse/air@latest"], fm.path, 30,
      "air installation", "install air package")
  }

  function GoTidy(fm: FileManager): CommandStep
  {
    CommandStep("go", ["mod", "tidy"], fm.path, 20, "go mod tidy", "run go mod tidy")
  }

  function ViteBuild(fm: FileManager): CommandStep
  {
    CommandStep("npm", ["run", "build", "--prefix", "frontend"], fm.path, 20, "npm build", "run npm build")
  }

  /** The install phase in the order `Init` issues it. */
  function InstallSteps(fm: FileManager, name: string, typescript: bool): seq<CommandStep>
  {
    [ModInit(fm, name), ViteCreate(fm, typescript), Concurrently(fm), NpmInstall(fm),
     EchoGet(fm), MiddlewareGet(fm), AirInstall(fm)]
  }

  /**
   * Every install step runs in the project root except the two npm installs,
   * which run in root/frontend; the scaffold template follows the TypeScript
   * flag; and no two steps of either phase share a failure message.
   */
  lemma InstallStepsShape(fm: FileManager, name: string, typescript: bool)
    ensures var s := InstallSteps(fm, name, typescript);
      && |s| == 7
      && (forall i :: 0 <= i < 7 && i != 2 && i != 3 ==> s[i].dir == fm.path)
      && s[2].dir == FrontendPath(fm) && s[3].dir == FrontendPath(fm)
      && s[1].args[5] == (if typescript then "svelte-ts" else "svelte")
      && s[0].args == ["mod", "init", name]
    ensures var all := InstallSteps(fm, name, typescript) + [GoTidy(fm), ViteBuild(fm)];
      forall i, j :: 0 <= i < j < |all| ==>
        all[i].timeoutLabel != all[j].timeoutLabel && all[i].failLabel != all[j].failLabel
  {
    var all := InstallSteps(fm, name, typescript) + [GoTidy(fm), ViteBuild(fm)];
    forall i, j | 0 <= i < j < |all|
      ensures all[i].timeoutLabel != all[j].timeoutLabel && all[i].failLabel != all[j].failLabel
    {
    }
  }

  // ---------------------------------------------------------------------
  // Init: module, frontend scaffold, Go packages
  // ---------------------------------------------------------------------

  /** `initModule`: refuses an empty module name before issuing any command. */
  function InitModule(fm: FileManager, name: string, env: Env, w: World): (s: Status)
    ensures s.world.disk == w.disk
    ensures |name| == 0 ==> s.world == w && s.err.Some?
    ensures s.err.None? ==> |s.world.trace| == |w.trace| + 1
  {
    if |name| <= 0 then Status(w, Some(MODULE_NAME_EMPTY))
    else ExecSteps(env, w, [ModInit(fm, name)])
  }

  /** `initVite`: scaffold, then `npm install -D concurrently`, then `npm install`. */
  function InitVite(fm: FileManager, typescript: bool, env: Env, w: World): (s: Status)
    ensures s.world.disk == w.disk
    ensures s.err.None? ==> |s.world.trace| == |w.trace| + 3
  {
    ExecSteps(env, w, [ViteCreate(fm, typescript), Concurrently(fm), NpmInstall(fm)])
  }

  /** `initPackages`: the echo framework, its middleware, and the air launcher. */
  function InitPackages(fm: FileManager, env: Env, w: World): (s: Status)
    ensures s.world.disk == w.disk
    ensures s.err.None? ==> |s.world.trace| == |w.trace| + 3
  {
    ExecSteps(env, w, [EchoGet(fm), MiddlewareGet(fm), AirInstall(fm)])
  }

  /** `FileManager.Init`: the three parts in order; the first error is returned. */
  function Init(fm: FileManager, name: string, typescript: bool, env: Env, w: World): (s: Status)
    ensures s.world.disk == w.disk
    ensures s.err.None? ==> |name| > 0 && |s.world.trace| == |w.trace| + 7
  {
    var s1 := InitModule(fm, name, env, w);
    if s1.err.Some? then s1
    else
      var s2 := InitVite(fm, typescript, env, s1.world);
      if s2.err.Some? then s2
      else InitPackages(fm, env, s2.world)
  }

  /**
   * `Init` is the single fail-fast pipeline over `InstallSteps`: with a
   * non-empty name it starts exactly a prefix of those steps, ending at the
   * first that fails; with an empty name it starts none.
   */
  lemma InitIsPipeline(fm: FileManager, name: string, typescript: bool, env: Env, w: World)
    ensures |name| == 0 ==> Init(fm, name, typescript, env, w) == Status(w, Some(MODULE_NAME_EMPTY))
    ensures |name| > 0 ==> Init(fm, name, typescript, env, w) == ExecSteps(env, w, InstallSteps(fm, name, typescript))
  {
    if |name| > 0 {
      var a := [ModInit(fm, name)];
      var b := [ViteCreate(fm, typescript), Concurrently(fm), NpmInstall(fm)];
      var c := [EchoGet(fm), MiddlewareGet(fm), AirInstall(fm)];
      assert InstallSteps(fm, name, typescript) == a + (b + c);
      ExecStepsAppend(env, w, a, b + c);
      var s1 := ExecSteps(env, w, a);
      if s1.err.None? {
        ExecStepsAppend(env, s1.world, b, c);
      }
    }
  }

  // ---------------------------------------------------------------------
  // ApplyDefaults: templates, package.json, tidy, build
  // ---------------------------------------------------------------------

  /** `applyMainDefault`: `os.Create` truncates, so the file ends up holding exactly the rendered text. */
  function ApplyMainDefault(fm: FileManager, port: string, env: Env, w: World): (s: Status)
    ensures var p := MainPath(fm);
      && (s.err.None? ==> s.world.disk == w.disk[p := Templates.Backend(port)])
      && (s.err.None? <==> env.fault(Create(p)).None? && env.fault(WriteAll(p)).None?)
    ensures var p := MainPath(fm);
      env.fault(Create(p)).Some? ==>
        s == Status(Record(w, File(Create(p))), Some(Failed("create '" + p + "'", env.fault(Create(p)).value)))
    ensures var p := MainPath(fm);
      env.fault(Create(p)).None? && env.fault(WriteAll(p)).Some? ==>
        && s.err == Some(Failed("update main.go", env.fault(WriteAll(p)).value))
        && s.world.disk == w.disk[p := ""]
  {
    WriteMain(fm, Templates.Backend(port), env, w)
  }

  /** The body of `applyMainDefault` for a given text: create (truncating) and write. */
  function WriteMain(fm: FileManager, text: string, env: Env, w: World): (s: Status)
    ensures var p := MainPath(fm);
      && (s.err.None? ==> s.world.disk == w.disk[p := text])
      && (s.err.None? <==> env.fault(Create(p)).None? && env.fault(WriteAll(p)).None?)
    ensures var p := MainPath(fm);
      env.fault(Create(p)).Some? ==>
        s == Status(Record(w, File(Create(p))), Some(Failed("create '" + p + "'", env.fault(Create(p)).value)))
    ensures var p := MainPath(fm);
      env.fault(Create(p)).None? && env.fault(WriteAll(p)).Some? ==>
        && s.err == Some(Failed("update main.go", env.fault(WriteAll(p)).value))
        && s.world.disk == w.disk[p := ""]
  {
    var p := MainPath(fm);
    var (w1, e1) := Call(env, w, Create(p));
    if e1.Some? then Status(w1, Some(Failed("create '" + p + "'", e1.value)))
    else
      var (w2, e2) := Call(env, w1.(disk := w1.disk[p := ""]), WriteAll(p));
      if e2.Some? then Status(w2, Some(Failed("update main.go", e2.value)))
      else Status(w2.(disk := w2.disk[p := text]), None)
  }


  /** package.json is there, can be read, decodes, and has a "scripts" object. */
  predicate PackageReadable(fm: FileManager, env: Env, disk: map<string, string>)
  {
    var p := PackagePath(fm);
    && p in disk && env.fault(ReadFile(p)).None?
    && env.unmarshal(disk[p]).Ok? && Json.HasScripts(env.unmarshal(disk[p]).value)
  }

  /**
   * `updatePackage`: read, decode, patch "scripts", encode, and rewrite with
   * O_TRUNC. A decode error or a missing/non-object "scripts" is reported
   * before the file is opened for writing, so the file stays as it was.
   */
  function UpdatePackage(fm: FileManager, env: Env, w: World): (s: Status)
    ensures var p := PackagePath(fm);
      s.err.None? <==>
        && p in w.disk && env.fault(ReadFile(p)).None?
        && env.unmarshal(w.disk[p]).Ok? && Json.HasScripts(env.unmarshal(w.disk[p]).value)
        && env.fault(OpenTrunc(p)).None? && env.fault(WriteAll(p)).None?
    ensures var p := PackagePath(fm);
      p !in w.disk ==>
        s == Status(Record(w, File(ReadFile(p))), Some(Failed("read package.json", NoSuchFile(p))))
    ensures var p := PackagePath(fm);
      (p in w.disk && env.fault(ReadFile(p)).None?
        && (env.unmarshal(w.disk[p]).Err? || !Json.HasScripts(env.unmarshal(w.disk[p]).value)))
      ==> s.world == Record(w, File(ReadFile(p)))
    ensures var p := PackagePath(fm);
      p in w.disk && env.fault(ReadFile(p)).None? && env.unmarshal(w.disk[p]).Err? ==>
        s.err == Some(Failed("unmarshal package.json", env.unmarshal(w.disk[p]).error))
    ensures var p := PackagePath(fm);
      p in w.disk && env.fault(ReadFile(p)).None? && env.unmarshal(w.disk[p]).Ok?
        && !Json.HasScripts(env.unmarshal(w.disk[p]).value) ==>
        s.err == Some(NO_SCRIPTS)
    ensures var p := PackagePath(fm);
      p in w.disk && env.fault(ReadFile(p)).Some? ==>
        s == Status(Record(w, File(ReadFile(p))), Some(Failed("read package.json", env.fault(ReadFile(p)).value)))
    ensures var p := PackagePath(fm);
      PackageReadable(fm, env, w.disk) && env.fault(OpenTrunc(p)).Some? ==>
        && s.err == Some(Failed("open '" + ConfigPath(fm) + "'", env.fault(OpenTrunc(p)).value))
        && s.world.disk == w.disk
    ensures var p := PackagePath(fm);
      PackageReadable(fm, env, w.disk) && env.fault(OpenTrunc(p)).None? && env.fault(WriteAll(p)).Some? ==>
        && s.err == Some(Failed("update package.json", env.fault(WriteAll(p)).value))
        && s.world.disk == w.disk[p := ""]
    ensures var p := PackagePath(fm);
      s.err.None? ==>
        && p in w.disk && env.unmarshal(w.disk[p]).Ok?
        && Json.HasScripts(env.unmarshal(w.disk[p]).value)
        && s.world.disk == w.disk[p := env.marshal(Json.PatchScripts(env.unmarshal(w.disk[p]).value).value)]
  {
    var p := PackagePath(fm);
    var (w1, e1) := Call(env, w, ReadFile(p));
    if e1.Some? then Status(w1, Some(Failed("read package.json", e1.value)))
    else
      match env.unmarshal(w1.disk[p])
      case Err(d) => Status(w1, Some(Failed("unmarshal package.json", d)))
      case Ok(doc) =>
        match Json.PatchScripts(doc)
        case None => Status(w1, Some(NO_SCRIPTS))
        case Some(patched) =>
          var text := env.marshal(patched);
          var (w2, e2) := Call(env, w1, OpenTrunc(p));
          // the message names the config file, as `updatePackage` does
          if e2.Some? then Status(w2, Some(Failed("open '" + ConfigPath(fm) + "'", e2.value)))
          else
            var (w3, e3) := Call(env, w2.(disk := w2.disk[p := ""]), WriteAll(p));
            if e3.Some? then Status(w3, Some(Failed("update package.json", e3.value)))
            else Status(w3.(disk := w3.disk[p := text]), None)
  }

  /** `applyViteDefault`: the frontend template for the port, written by `WriteViteConfig`. */
  function ApplyViteDefault(fm: FileManager, port: string, env: Env, w: World): (s: Status)
    ensures var c := ConfigPath(fm);
      c !in w.disk ==>
        s == Status(Record(w, File(OpenRw(c))), Some(Failed("open '" + c + "'", NoSuchFile(c))))
    ensures var c := ConfigPath(fm);
      c in w.disk && env.fault(OpenRw(c)).Some? ==>
        s == Status(Record(w, File(OpenRw(c))), Some(Failed("open '" + c + "'", env.fault(OpenRw(c)).value)))
    ensures var c := ConfigPath(fm);
      c in w.disk && env.fault(OpenRw(c)).None? && env.fault(WriteAll(c)).Some? ==>
        && s.err == Some(Failed("update vite config", env.fault(WriteAll(c)).value))
        && s.world.disk == w.disk
  {
    WriteViteConfig(fm, Templates.ViteConfig(port), env, w)
  }

  /**
   * The body of `applyViteDefault` for a given text: open without O_TRUNC or
   * O_APPEND and write at offset 0, then patch package.json.
   */
  function WriteViteConfig(fm: FileManager, text: string, env: Env, w: World): (s: Status)
    ensures var c := ConfigPath(fm);
      c !in w.disk ==>
        s == Status(Record(w, File(OpenRw(c))), Some(Failed("open '" + c + "'", NoSuchFile(c))))
    ensures var c := ConfigPath(fm);
      c in w.disk && env.fault(OpenRw(c)).Some? ==>
        s == Status(Record(w, File(OpenRw(c))), Some(Failed("open '" + c + "'", env.fault(OpenRw(c)).value)))
    ensures var c := ConfigPath(fm);
      c in w.disk && env.fault(OpenRw(c)).None? && env.fault(WriteAll(c)).Some? ==>
        && s.err == Some(Failed("update vite config", env.fault(WriteAll(c)).value))
        && s.world.disk == w.disk
  {
    var p := ConfigPath(fm);
    var (w1, e1) := Call(env, w, OpenRw(p));
    if e1.Some? then Status(w1, Some(Failed("open '" + p + "'", e1.value)))
    else
      var (w2, e2) := Call(env, w1, WriteAll(p));
      if e2.Some? then Status(w2, Some(Failed("update vite config", e2.value)))
      else UpdatePackage(fm, env, w2.(disk := w2.disk[p := Sys.OverwriteAt0(w2.disk[p], text)]))
  }

  /** `FileManager.ApplyDefaults`: main.go, vite config (and package.json), tidy, build. */
  function ApplyDefaults(fm: FileManager, port: string, env: Env, w: World): Status
  {
    WriteDefaults(fm, Templates.Backend(port), Templates.ViteConfig(port), env, w)
  }

  /** The defaults stage with the two rendered templates given. */
  function WriteDefaults(fm: FileManager, mainText: string, viteText: string, env: Env, w: World): Status
  {
    var s1 := WriteMain(fm, mainText, env, w);
    if s1.err.Some? then s1
    else
      var s2 := WriteViteConfig(fm, viteText, env, s1.world);
      if s2.err.Some? then s2
      else
        var s3 := ExecSteps(env, s2.world, [GoTidy(fm)]);
        if s3.err.Some? then s3
        else ExecSteps(env, s3.world, [ViteBuild(fm)])
  }


  function MainPlan(fm: FileManager): seq<Effect>
  {
    [File(Create(MainPath(fm))), File(WriteAll(MainPath(fm)))]
  }

  function PackagePlan(fm: FileManager): seq<Effect>
  {
    [File(ReadFile(PackagePath(fm))), File(OpenTrunc(PackagePath(fm))), File(WriteAll(PackagePath(fm)))]
  }

  function VitePlan(fm: FileManager): seq<Effect>
  {
    [File(OpenRw(ConfigPath(fm))), File(WriteAll(ConfigPath(fm)))] + PackagePlan(fm)
  }

  /** Every OS call `ApplyDefaults` can make, in the only order it makes them. */
  function DefaultsPlan(fm: FileManager): seq<Effect>
  {
    MainPlan(fm) + VitePlan(fm) + Execs([GoTidy(fm)]) + Execs([ViteBuild(fm)])
  }

  // ---------------------------------------------------------------------
  // Where a failing defaults stage stops
  // ---------------------------------------------------------------------

  /** One check per call of `MainPlan`: the create, then the write. */
  function MainChecks(fm: FileManager, env: Env): seq<bool>
  {
    [env.fault(Create(MainPath(fm))).None?, env.fault(WriteAll(MainPath(fm))).None?]
  }

  /**
   * One check per call of `PackagePlan`. The read goes through when the file
   * is there, can be read, decodes, and has a "scripts" object; then the
   * truncating open, then the write.
   */
  function PackageChecks(fm: FileManager, env: Env, disk: map<string, string>): seq<bool>
  {
    var p := PackagePath(fm);
    [PackageReadable(fm, env, disk), env.fault(OpenTrunc(p)).None?, env.fault(WriteAll(p)).None?]
  }

  /** One check per call of `VitePlan`: the config file must be there to be opened. */
  function ViteChecks(fm: FileManager, env: Env, disk: map<string, string>): seq<bool>
  {
    var c := ConfigPath(fm);
    [c in disk && env.fault(OpenRw(c)).None?, env.fault(WriteAll(c)).None?] + PackageChecks(fm, env, disk)
  }

  /** One check per call of `DefaultsPlan`, all read against the disk the stage starts from. */
  function DefaultsChecks(fm: FileManager, env: Env, disk: map<string, string>): seq<bool>
  {
    MainChecks(fm, env) + ViteChecks(fm, env, disk) + RanEach(env.run, [GoTidy(fm)]) + RanEach(env.run, [ViteBuild(fm)])
  }

  lemma MainStops(fm: FileManager, text: string, env: Env, w: World)
    ensures StopsAtFirstFailure(w, WriteMain(fm, text, env, w), MainChecks(fm, env))
  {
    var ok := MainChecks(fm, env);
    assert (forall i :: 0 <= i < |ok| ==> ok[i]) <==> ok[0] && ok[1];
  }

  lemma PackageStops(fm: FileManager, env: Env, w: World)
    ensures StopsAtFirstFailure(w, UpdatePackage(fm, env, w), PackageChecks(fm, env, w.disk))
  {
    var ok := PackageChecks(fm, env, w.disk);
    assert (forall i :: 0 <= i < |ok| ==> ok[i]) <==> ok[0] && ok[1] && ok[2];
  }

  /** The Vite stage stops right after its first call that fails. */
  lemma ViteStops(fm: FileManager, port: string, env: Env, w: World)
    ensures StopsAtFirstFailure(w, ApplyViteDefault(fm, port, env, w), ViteChecks(fm, env, w.disk))
  {
    ConfigIsNotPackage(fm);
    WriteViteStops(fm, Templates.ViteConfig(port), env, w);
  }

  lemma WriteViteStops(fm: FileManager, text: string, env: Env, w: World)
    ensures StopsAtFirstFailure(w, WriteViteConfig(fm, text, env, w), ViteChecks(fm, env, w.disk))
  {
    ConfigIsNotPackage(fm);
    var c, p := ConfigPath(fm), PackagePath(fm);
    var head := [c in w.disk && env.fault(OpenRw(c)).None?, env.fault(WriteAll(c)).None?];
    if c in w.disk && env.fault(OpenRw(c)).None? && env.fault(WriteAll(c)).None? {
      var w2 := Record(Record(w, File(OpenRw(c))), File(WriteAll(c)));
      var w3 := w2.(disk := w.disk[c := Sys.OverwriteAt0(w.disk[c], text)]);
      assert WriteViteConfig(fm, text, env, w) == UpdatePackage(fm, env, w3);
      PackageChecksKeep(fm, env, w.disk, c, Sys.OverwriteAt0(w.disk[c], text));
      PackageStops(fm, env, w3);
      StopsAtFirstFailureThen(w, Status(w3, None), UpdatePackage(fm, env, w3), head, PackageChecks(fm, env, w.disk));
    } else {
      var s := WriteViteConfig(fm, text, env, w);
      assert !head[0] || !head[1];
      StopsAtFirstFailureStop(w, s, head, PackageChecks(fm, env, w.disk));
    }
  }

  /** Writing another file leaves the package checks as they were. */
  lemma PackageChecksKeep(fm: FileManager, env: Env, disk: map<string, string>, q: string, text: string)
    requires q != PackagePath(fm)
    ensures PackageChecks(fm, env, disk[q := text]) == PackageChecks(fm, env, disk)
  {
  }

  /** Writing another file leaves the Vite checks as they were. */
  lemma ViteChecksKeep(fm: FileManager, env: Env, disk: map<string, string>, q: string, text: string)
    requires q != PackagePath(fm) && q != ConfigPath(fm)
    ensures ViteChecks(fm, env, disk[q := text]) == ViteChecks(fm, env, disk)
  {
    PackageChecksKeep(fm, env, disk, q, text);
  }

  /**
   * `ApplyDefaults` stops right after its first call that fails, so the
   * first error stops the rest; it returns nil exactly when every call of
   * the plan goes through and both commands run to completion.
   */
  lemma ApplyDefaultsStops(fm: FileManager, root: GoPath.CleanPath, port: string, env: Env, w: World)
    requires fm.path == GoPath.Render(root)
    ensures StopsAtFirstFailure(w, ApplyDefaults(fm, port, env, w), DefaultsChecks(fm, env, w.disk))
  {
    WriteDefaultsStops(fm, root, Templates.Backend(port), Templates.ViteConfig(port), env, w);
  }

  lemma WriteDefaultsStops(fm: FileManager, root: GoPath.CleanPath, mainText: string, viteText: string, env: Env, w: World)
    requires fm.path == GoPath.Render(root)
    ensures StopsAtFirstFailure(w, WriteDefaults(fm, mainText, viteText, env, w), DefaultsChecks(fm, env, w.disk))
  {
    PathHelpers(fm, root);
    var a, b := MainChecks(fm, env), ViteChecks(fm, env, w.disk);
    var c, d := RanEach(env.run, [GoTidy(fm)]), RanEach(env.run, [ViteBuild(fm)]);
    var s1 := WriteMain(fm, mainText, env, w);
    MainStops(fm, mainText, env, w);
    MainFollowsPlan(fm, mainText, env, w);
    if s1.err.Some? {
      StopsAtFirstFailureStop(w, s1, a, b + c + d);
      AppendAssoc3(a, b, c, d);
      return;
    }
    var s2 := WriteViteConfig(fm, viteText, env, s1.world);
    WriteViteStops(fm, viteText, env, s1.world);
    ViteChecksKeep(fm, env, w.disk, MainPath(fm), mainText);
    WriteViteFollowsPlan(fm, viteText, env, s1.world);
    StopsAtFirstFailureThen(w, s1, s2, a, b);
    if s2.err.Some? {
      StopsAtFirstFailureStop(w, s2, a + b, c + d);
      AppendAssoc(a + b, c, d);
      return;
    }
    var s3 := ExecSteps(env, s2.world, [GoTidy(fm)]);
    ExecStepsStops(env, s2.world, [GoTidy(fm)]);
    StopsAtFirstFailureThen(w, s2, s3, a + b, c);
    if s3.err.Some? {
      StopsAtFirstFailureStop(w, s3, a + b + c, d);
      return;
    }
    ExecStepsStops(env, s3.world, [ViteBuild(fm)]);
    StopsAtFirstFailureThen(w, s3, ExecSteps(env, s3.world, [ViteBuild(fm)]), a + b + c, d);
  }

  /**
   * When `ApplyDefaults` fails, the last call it made is the first planned
   * call whose check fails; every earlier call went through.
   */
  lemma ApplyDefaultsFailsAt(fm: FileManager, root: GoPath.CleanPath, port: string, env: Env, w: World)
    requires fm.path == GoPath.Render(root)
    ensures var s := ApplyDefaults(fm, port, env, w);
      var ok, k := DefaultsChecks(fm, env, w.disk), |s.world.trace| - |w.trace|;
      s.err.Some? ==>
        && 1 <= k <= |DefaultsPlan(fm)|
        && s.world.trace == w.trace + DefaultsPlan(fm)[..k]
        && s.world.trace[|s.world.trace| - 1] == DefaultsPlan(fm)[k - 1]
        && !ok[k - 1] && (forall i :: 0 <= i < k - 1 ==> ok[i])
  {
    var s := ApplyDefaults(fm, port, env, w);
    ApplyDefaultsStops(fm, root, port, env, w);
    ApplyDefaultsFollowsPlan(fm, port, env, w);
    if s.err.Some? {
      LastCallFailed(w, s, DefaultsPlan(fm), DefaultsChecks(fm, env, w.disk));
    }
  }

  /**
   * `ApplyDefaults` returns nil exactly when: main.go can be created and
   * written; vite.config.js exists and can be opened and written;
   * package.json exists, can be read, decodes, has a "scripts" object, and
   * can be reopened and written; and `go mod tidy` and the build both run.
   */
  lemma ApplyDefaultsSucceeds(fm: FileManager, root: GoPath.CleanPath, port: string, env: Env, w: World)
    requires fm.path == GoPath.Render(root)
    ensures var m, c, p := MainPath(fm), ConfigPath(fm), PackagePath(fm);
      ApplyDefaults(fm, port, env, w).err.None? <==>
        && env.fault(Create(m)).None? && env.fault(WriteAll(m)).None?
        && c in w.disk && env.fault(OpenRw(c)).None? && env.fault(WriteAll(c)).None?
        && p in w.disk && env.fault(ReadFile(p)).None?
        && env.unmarshal(w.disk[p]).Ok? && Json.HasScripts(env.unmarshal(w.disk[p]).value)
        && env.fault(OpenTrunc(p)).None? && env.fault(WriteAll(p)).None?
        && env.run(GoTidy(fm)).Ran? && env.run(ViteBuild(fm)).Ran?
  {
    ApplyDefaultsStops(fm, root, port, env, w);
    DefaultsChecksAll(fm, env, w.disk);
  }

  lemma DefaultsChecksAll(fm: FileManager, env: Env, disk: map<string, string>)
    ensures var m, c, p := MainPath(fm), ConfigPath(fm), PackagePath(fm);
      var ok := DefaultsChecks(fm, env, disk);
      (forall i :: 0 <= i < |ok| ==> ok[i]) <==>
        && env.fault(Create(m)).None? && env.fault(WriteAll(m)).None?
        && c in disk && env.fault(OpenRw(c)).None? && env.fault(WriteAll(c)).None?
        && p in disk && env.fault(ReadFile(p)).None?
        && env.unmarshal(disk[p]).Ok? && Json.HasScripts(env.unmarshal(disk[p]).value)
        && env.fault(OpenTrunc(p)).None? && env.fault(WriteAll(p)).None?
        && env.run(GoTidy(fm)).Ran? && env.run(ViteBuild(fm)).Ran?
  {
    var ok := DefaultsChecks(fm, env, disk);
    assert |ok| == 9;
    assert (forall i :: 0 <= i < 9 ==> ok[i]) <==>
      ok[0] && ok[1] && ok[2] && ok[3] && ok[4] && ok[5] && ok[6] && ok[7] && ok[8];
  }

  /** Regrouping four appended traces; a separate step keeps the stage proofs within the solver's budget. */
  lemma AppendAssoc3<T>(a: seq<T>, b: seq<T>, c: seq<T>, d: seq<T>)
    ensures a + (b + c + d) == a + b + c + d
  {
  }

  lemma MainFollowsPlan(fm: FileManager, text: string, env: Env, w: World)
    ensures FollowsPlan(w, WriteMain(fm, text, env, w), MainPlan(fm))
  {
  }

  lemma PackageFollowsPlan(fm: FileManager, env: Env, w: World)
    ensures FollowsPlan(w, UpdatePackage(fm, env, w), PackagePlan(fm))
  {
  }

  lemma ViteFollowsPlan(fm: FileManager, port: string, env: Env, w: World)
    ensures FollowsPlan(w, ApplyViteDefault(fm, port, env, w), VitePlan(fm))
  {
    WriteViteFollowsPlan(fm, Templates.ViteConfig(port), env, w);
  }

  lemma WriteViteFollowsPlan(fm: FileManager, text: string, env: Env, w: World)
    ensures FollowsPlan(w, WriteViteConfig(fm, text, env, w), VitePlan(fm))
  {
    var c := ConfigPath(fm);
    if c in w.disk && env.fault(OpenRw(c)).None? && env.fault(WriteAll(c)).None? {
      var w2 := Record(Record(w, File(OpenRw(c))), File(WriteAll(c)));
      var w3 := w2.(disk := w2.disk[c := Sys.OverwriteAt0(w2.disk[c], text)]);
      var head := [File(OpenRw(c)), File(WriteAll(c))];
      PackageFollowsPlan(fm, env, w3);
      FollowsPlanThen(w, Status(w3, None), UpdatePackage(fm, env, w3), head, PackagePlan(fm));
    }
  }

  /**
   * `ApplyDefaults` makes a non-empty prefix of the plan's calls and nothing
   * else; it returns nil only after making all of them.
   */
  lemma ApplyDefaultsFollowsPlan(fm: FileManager, port: string, env: Env, w: World)
    ensures FollowsPlan(w, ApplyDefaults(fm, port, env, w), DefaultsPlan(fm))
  {
    WriteDefaultsFollowsPlan(fm, Templates.Backend(port), Templates.ViteConfig(port), env, w);
  }

  lemma WriteDefaultsFollowsPlan(fm: FileManager, mainText: string, viteText: string, env: Env, w: World)
    ensures FollowsPlan(w, WriteDefaults(fm, mainText, viteText, env, w), DefaultsPlan(fm))
  {
    var a, b, c, d := MainPlan(fm), VitePlan(fm), Execs([GoTidy(fm)]), Execs([ViteBuild(fm)]);
    var s1 := WriteMain(fm, mainText, env, w);
    MainFollowsPlan(fm, mainText, env, w);
    if s1.err.Some? {
      FollowsPlanStop(w, s1, a, b + c + d);
      assert a + (b + c + d) == DefaultsPlan(fm);
      return;
    }
    var s2 := WriteViteConfig(fm, viteText, env, s1.world);
    WriteViteFollowsPlan(fm, viteText, env, s1.world);
    FollowsPlanThen(w, s1, s2, a, b);
    if s2.err.Some? {
      FollowsPlanStop(w, s2, a + b, c + d);
      assert a + b + (c + d) == DefaultsPlan(fm);
      return;
    }
    var s3 := ExecSteps(env, s2.world, [GoTidy(fm)]);
    ExecStepsFollowPlan(env, s2.world, [GoTidy(fm)]);
    FollowsPlanThen(w, s2, s3, a + b, c);
    if s3.err.Some? {
      FollowsPlanStop(w, s3, a + b + c, d);
      return;
    }
    ExecStepsFollowPlan(env, s3.world, [ViteBuild(fm)]);
    FollowsPlanThen(w, s3, ExecSteps(env, s3.world, [ViteBuild(fm)]), a + b + c, d);
  }

  /** On success the config file is overwritten from offset 0 and package.json is patched. */
  lemma ViteWrites(fm: FileManager, port: string, env: Env, w: World)
    ensures var s := ApplyViteDefault(fm, port, env, w);
      var c, p := ConfigPath(fm), PackagePath(fm);
      s.err.None? ==>
        && c in w.disk && p in w.disk
        && env.unmarshal(w.disk[p]).Ok? && Json.HasScripts(env.unmarshal(w.disk[p]).value)
        && s.world.disk == w.disk[c := Sys.OverwriteAt0(w.disk[c], Templates.ViteConfig(port))]
                                 [p := env.marshal(Json.PatchScripts(env.unmarshal(w.disk[p]).value).value)]
  {
    ConfigIsNotPackage(fm);
    WriteViteWrites(fm, Templates.ViteConfig(port), env, w);
  }

  lemma WriteViteWrites(fm: FileManager, text: string, env: Env, w: World)
    ensures var s := WriteViteConfig(fm, text, env, w);
      var c, p := ConfigPath(fm), PackagePath(fm);
      s.err.None? ==>
        && c in w.disk && p in w.disk
        && env.unmarshal(w.disk[p]).Ok? && Json.HasScripts(env.unmarshal(w.disk[p]).value)
        && s.world.disk == w.disk[c := Sys.OverwriteAt0(w.disk[c], text)]
                                 [p := env.marshal(Json.PatchScripts(env.unmarshal(w.disk[p]).value).value)]
  {
    ConfigIsNotPackage(fm);
    var c, p := ConfigPath(fm), PackagePath(fm);
    if c in w.disk && env.fault(OpenRw(c)).None? && env.fault(WriteAll(c)).None? {
      var w2 := Record(Record(w, File(OpenRw(c))), File(WriteAll(c)));
      var w3 := w2.(disk := w.disk[c := Sys.OverwriteAt0(w.disk[c], text)]);
      assert WriteViteConfig(fm, text, env, w) == UpdatePackage(fm, env, w3);
      assert p in w3.disk ==> w3.disk[p] == w.disk[p];
    }
  }

  /**
   * On success the three files hold: main.go exactly the backend template,
   * vite.config.js the frontend template written over its old start, and
   * package.json the re-encoded, patched document; nothing else changes.
   */
  lemma ApplyDefaultsWrites(fm: FileManager, root: GoPath.CleanPath, port: string, env: Env, w: World)
    requires fm.path == GoPath.Render(root)
    ensures var s := ApplyDefaults(fm, port, env, w);
      var m, c, p := MainPath(fm), ConfigPath(fm), PackagePath(fm);
      s.err.None? ==>
        && c in w.disk && p in w.disk
        && env.unmarshal(w.disk[p]).Ok? && Json.HasScripts(env.unmarshal(w.disk[p]).value)
        && s.world.disk == w.disk[m := Templates.Backend(port)]
                                 [c := Sys.OverwriteAt0(w.disk[c], Templates.ViteConfig(port))]
                                 [p := env.marshal(Json.PatchScripts(env.unmarshal(w.disk[p]).value).value)]
  {
    WriteDefaultsWrites(fm, root, Templates.Backend(port), Templates.ViteConfig(port), env, w);
  }

  lemma WriteDefaultsWrites(fm: FileManager, root: GoPath.CleanPath, mainText: string, viteText: string, env: Env, w: World)
    requires fm.path == GoPath.Render(root)
    ensures var s := WriteDefaults(fm, mainText, viteText, env, w);
      var m, c, p := MainPath(fm), ConfigPath(fm), PackagePath(fm);
      s.err.None? ==>
        && c in w.disk && p in w.disk
        && env.unmarshal(w.disk[p]).Ok? && Json.HasScripts(env.unmarshal(w.disk[p]).value)
        && s.world.disk == w.disk[m := mainText]
                                 [c := Sys.OverwriteAt0(w.disk[c], viteText)]
                                 [p := env.marshal(Json.PatchScripts(env.unmarshal(w.disk[p]).value).value)]
  {
    PathHelpers(fm, root);
    var m, c, p := MainPath(fm), ConfigPath(fm), PackagePath(fm);
    var s1 := WriteMain(fm, mainText, env, w);
    if s1.err.None? {
      WriteViteWrites(fm, viteText, env, s1.world);
      var d1 := s1.world.disk;
      assert c in d1 ==> d1[c] == w.disk[c];
      assert p in d1 ==> d1[p] == w.disk[p];
    }
  }
}

=== FILE: gofmt.dfy ===
/**
 * The two uses of Go's `fmt.Sprintf` in the scaffolder:
 *  - `Sprintf(tmpl, s)` with one string operand, where the template's only
 *    directives are `%v` (and `%%`), as used to fill the fixed templates;
 *  - `Sprintf(":%4.v", port)` on an `int`, the port string.
 */
module GoFmt {
  import opened Wrappers

  // ---------------------------------------------------------------------
  // Sprintf with a single string operand
  // ---------------------------------------------------------------------

  /** The format has only the directives this model covers: `%v` and `%%`. */
  predicate Supported(f: string)
    decreases |f|
  {
    if f == [] then true
    else if f[0] != '%' then Supported(f[1..])
    else |f| >= 2 && (f[1] == 'v' || f[1] == '%') && Supported(f[2..])
  }

  /** Go's text for an operand nobody consumed. */
  function Extra(arg: string): string
  {
    "%!(EXTRA string=" + arg + ")"
  }

  /** Go's text for a `%v` with no operand left. */
  const MISSING: string := "%!v(MISSING)"

  /** Go's `doPrintf` loop; `used` records whether the operand was consumed. */
  function Scan(f: string, arg: string, used: bool): string
    requires Supported(f)
    decreases |f|
  {
    if f == [] then (if used then "" else Extra(arg))
    else if f[0] != '%' then [f[0]] + Scan(f[1..], arg, used)
    else if f[1] == '%' then "%" + Scan(f[2..], arg, used)
    else (if used then MISSING else arg) + Scan(f[2..], arg, true)
  }

  /** `fmt.Sprintf(f, arg)` for a string operand. */
  function Sprintf(f: string, arg: string): string
    requires Supported(f)
  {
    Scan(f, arg, false)
  }

  /** Text without '%' is supported and copied verbatim once the operand is used. */
  lemma {:induction false} ScanPlain(s: string, arg: string)
    requires '%' !in s
    ensures Supported(s)
    ensures Scan(s, arg, true) == s
  {
    if s != [] {
      NoPercentTail(s);
      ScanPlain(s[1..], arg);
      ScanLiteral(s, arg, true);
      assert [s[0]] + s[1..] == s;
    }
  }

  /** A format with exactly one `%v` and no other '%' renders as prefix ++ operand ++ suffix. */
  lemma {:induction false} SprintfOneHole(pre: string, post: string, arg: string)
    requires '%' !in pre && '%' !in post
    ensures Supported(pre + "%v" + post)
    ensures Sprintf(pre + "%v" + post, arg) == pre + arg + post
  {
    OneHoleScan(pre, post, arg);
  }

  lemma {:induction false} OneHoleScan(pre: string, post: string, arg: string)
    requires '%' !in pre && '%' !in post
    ensures Supported(pre + "%v" + post)
    ensures Scan(pre + "%v" + post, arg, false) == pre + arg + post
  {
    var f := pre + "%v" + post;
    if pre == [] {
      assert f == "%v" + post;
      assert f[2..] == post;
      ScanPlain(post, arg);
    } else {
      NoPercentTail(pre);
      assert f[1..] == pre[1..] + "%v" + post;
      OneHoleScan(pre[1..], post, arg);
      ScanLiteral(f, arg, false);
      ConsSplit(pre, arg + post);
    }
  }

  /** A character other than '%' is copied and the scan goes on with the rest. */
  lemma ScanLiteral(f: string, arg: string, used: bool)
    requires f != [] && f[0] != '%' && Supported(f[1..])
    ensures Supported(f)
    ensures Scan(f, arg, used) == [f[0]] + Scan(f[1..], arg, used)
  {
  }

  lemma NoPercentTail(s: string)
    requires s != [] && '%' !in s
    ensures s[0] != '%' && '%' !in s[1..]
  {
    assert s[0] in s;
    forall k | 0 <= k < |s[1..]| ensures s[1..][k] != '%' {
      assert s[1..][k] == s[k + 1];
    }
  }

  lemma ConsSplit(s: string, t: string)
    requires s != []
    ensures [s[0]] + (s[1..] + t) == s + t
  {
    assert [s[0]] + s[1..] == s;
  }

  predicate IsDigit(c: char)
  {
    '0' <= c <= '9'
  }

  predicate AllDigits(s: string)
  {
    forall i :: 0 <= i < |s| ==> IsDigit(s[i])
  }

  function DigitChar(d: nat): (c: char)
    requires d < 10
    ensures IsDigit(c)
  {
    ['0', '1', '2', '3', '4', '5', '6', '7', '8', '9'][d]
  }

  function DigitValue(c: char): nat
    requires IsDigit(c)
  {
    (c as int - '0' as int) as nat
  }

  /** The decimal digits of `n`, most significant first, without leading zeros. */
  function Decimal(n: nat): (s: string)
    ensures |s| >= 1
    ensures AllDigits(s)
    ensures n > 0 ==> s[0] != '0'
  {
    if n < 10 then [DigitChar(n)] else Decimal(n / 10) + [DigitChar(n % 10)]
  }

  /** The number a string of digits denotes. */
  function Value(s: string): nat
    requires AllDigits(s)
  {
    if s == [] then 0 else 10 * Value(s[..|s| - 1]) + DigitValue(s[|s| - 1])
  }

  lemma {:induction false} ValueDecimal(n: nat)
    ensures Value(Decimal(n)) == n
  {
    var s := Decimal(n);
    if n >= 10 {
      ValueDecimal(n / 10);
      assert s[..|s| - 1] == Decimal(n / 10);
    }
    assert DigitValue(DigitChar(n % 10)) == n % 10;
  }

  /**
   * The digits Go's `fmtInteger` writes for `%.0v`: precision zero with the
   * value zero writes no digits at all; a negative value gets a minus sign.
   */
  function IntDigits(v: int): (s: string)
    ensures v == 0 <==> s == ""
    ensures s != "" ==> s[0] != ' '
  {
    if v == 0 then ""
    else if v < 0 then "-" + Decimal(-v)
    else Decimal(v)
  }

  function Spaces(n: nat): (s: string)
    ensures |s| == n
    ensures forall i :: 0 <= i < n ==> s[i] == ' '
  {
    if n == 0 then "" else " " + Spaces(n - 1)
  }

  /** Go's right-justification to a minimum width, padding with spaces. */
  function PadLeft(s: string, width: nat): string
  {
    if |s| < width then Spaces(width - |s|) + s else s
  }

  /** `fmt.Sprintf(":%4.v", port)`: a colon, then the digits right-justified in four columns. */
  function PortString(port: int): (s: string)
    ensures |s| == 1 + (if |IntDigits(port)| < 4 then 4 else |IntDigits(port)|)
    ensures s[0] == ':'
    ensures s[|s| - |IntDigits(port)|..] == IntDigits(port)
    ensures forall i :: 1 <= i < |s| - |IntDigits(port)| ==> s[i] == ' '
  {
    ":" + PadLeft(IntDigits(port), 4)
  }

  // The inverse: reading a port string back.

  function TrimSpaces(s: string): string
  {
    if s != [] && s[0] == ' ' then TrimSpaces(s[1..]) else s
  }

  /** Reads back the number a port string shows; `None` for text not of that shape. */
  function ParsePort(s: string): Option<int>
  {
    if s == [] || s[0] != ':' then None
    else
      var body := TrimSpaces(s[1..]);
      if body == [] then Some(0)
      else if body[0] == '-' then
        (if AllDigits(body[1..]) then Some(0 - Value(body[1..]) as int) else None)
      else if AllDigits(body) then Some(Value(body))
      else None
  }

  lemma {:induction false} TrimSpacesPadding(n: nat, d: string)
    requires d == [] || d[0] != ' '
    ensures TrimSpaces(Spaces(n) + d) == d
  {
    if n > 0 {
      assert (Spaces(n) + d)[1..] == Spaces(n - 1) + d;
      TrimSpacesPadding(n - 1, d);
    } else {
      assert Spaces(n) + d == d;
    }
  }

  /** The digits of an integer read back as that integer. */
  lemma ReadIntDigits(port: int)
    ensures ParsePort(":" + IntDigits(port)) == Some(port)
  {
    if port < 0 {
      ReadNegative(port);
    } else if port > 0 {
      ReadPositive(port);
    } else {
      assert (":" + IntDigits(port))[1..] == "";
    }
  }

  lemma ReadPositive(port: int)
    requires port > 0
    ensures ParsePort(":" + IntDigits(port)) == Some(port)
  {
    var d := IntDigits(port);
    ReadUnpadded(d);
    ValueDecimal(port);
  }

  lemma ReadNegative(port: int)
    requires port < 0
    ensures ParsePort(":" + IntDigits(port)) == Some(port)
  {
    var n: nat := -port;
    var x := Decimal(n);
    ValueDecimal(n);
    NegativeDigits(port, n, x);
    ReadMinus(IntDigits(port), x, n);
  }

  lemma NegativeDigits(port: int, n: nat, x: string)
    requires port < 0 && n == -port && x == Decimal(n)
    ensures IntDigits(port) == "-" + x
  {
  }

  lemma ReadMinus(d: string, x: string, n: nat)
    requires d == "-" + x && AllDigits(x) && Value(x) == n
    ensures ParsePort(":" + d) == Some(-(n as int))
  {
    ReadUnpadded(d);
    assert d[1..] == x;
  }

  /** A port string without padding is read from the character after the colon. */
  lemma ReadUnpadded(d: string)
    requires d == [] || d[0] != ' '
    ensures d == [] ==> ParsePort(":" + d) == Some(0)
    ensures d != [] && d[0] == '-' && AllDigits(d[1..]) ==> ParsePort(":" + d) == Some(0 - Value(d[1..]))
    ensures d != [] && d[0] != '-' && AllDigits(d) ==> ParsePort(":" + d) == Some(Value(d))
  {
    assert (":" + d)[1..] == d;
    assert TrimSpaces(d) == d;
  }

  /** Round trip: the port string always reads back as the port it was made from. */
  lemma PortStringRoundTrip(port: int)
    ensures ParsePort(PortString(port)) == Some(port)
  {
    var d := IntDigits(port);
    var s, t := PortString(port), ":" + d;
    assert s[1..] == PadLeft(d, 4);
    assert t[1..] == d;
    if |d| < 4 {
      TrimSpacesPadding(4 - |d|, d);
    } else {
      assert s[1..] == Spaces(0) + d;
    }
    TrimSpacesPadding(0, d);
    assert Spaces(0) + d == d;
    ParsePortTrim(s, t);
    ReadIntDigits(port);
  }

  /** Only the text after the colon and its leading spaces matters to the reader. */
  lemma ParsePortTrim(s: string, t: string)
    requires s != [] && t != [] && s[0] == ':' && t[0] == ':'
    requires TrimSpaces(s[1..]) == TrimSpaces(t[1..])
    ensures ParsePort(s) == ParsePort(t)
  {
  }

  /** The default port, and the port of the documented end-to-end scenario. */
  lemma PortStringDefault()
    ensures PortString(8080) == ":8080"
    ensures PortString(3000) == ":3000"
  {
    assert Decimal(3) == "3";
    assert Decimal(30) == "30";
    assert Decimal(300) == "300";
    assert Decimal(3000) == "3000";
    assert PadLeft("3000", 4) == "3000";
    assert Decimal(8) == "8";
    assert Decimal(80) == "80";
    assert Decimal(808) == "808";
    assert Decimal(8080) == "8080";
    assert PadLeft("8080", 4) == "8080";
  }

  /** A two-digit port is padded with two spaces. */
  lemma PortStringShort()
    ensures PortString(80) == ":  80"
  {
    assert Decimal(8) == "8";
    assert Decimal(80) == "80";
    assert Spaces(2) == "  " by {
      assert Spaces(1) == " ";
    }
    assert PadLeft("80", 4) == "  80";
  }

  /** Port zero prints no digits at all, only the padding. */
  lemma PortStringZero()
    ensures PortString(0) == ":    "
  {
    assert Spaces(4) == "    " by {
      assert Spaces(1) == " ";
      assert Spaces(2) == "  ";
      assert Spaces(3) == "   ";
    }
  }

  /** A five-digit port is wider than the field and is not padded. */
  lemma PortStringWide()
    ensures PortString(65535) == ":65535"
  {
    assert Decimal(6) == "6";
    assert Decimal(65) == "65";
    assert Decimal(655) == "655";
    assert Decimal(6553) == "6553";
    assert Decimal(65535) == "65535";
  }
}

=== FILE: gopath.dfy ===
/**
 * The part of Go's lexical `path` package the scaffolder relies on:
 * `Split`, `Clean`, `Dir` and `Join` on rooted (absolute) paths.
 *
 * A clean absolute path is modelled as the list of its names
 * (`[]` is "/", `["a", "b"]` is "/a/b"), and `Clean` of a rooted string
 * is a left-to-right fold of its slash-separated elements over that list.
 */
module GoPath {

  /** One element of a clean absolute path. */
  predicate IsName(s: string)
  {
    s != "" && s != "." && s != ".." && '/' !in s
  }

  /** A clean absolute path as its sequence of names. */
  type AbsPath = seq<string>

  predicate Valid(p: AbsPath)
  {
    forall i :: 0 <= i < |p| ==> IsName(p[i])
  }

  /**
   * An absolute, clean path. The working directory is taken to be one;
   * Go's `os.Getwd` may instead return `$PWD` as it was set.
   */
  type CleanPath = p: AbsPath | Valid(p) witness []

  predicate Rooted(s: string)
  {
    |s| > 0 && s[0] == '/'
  }

  /** The elements of `s` between slashes (Go's `strings.Split(s, "/")`). */
  function Elements(s: string): (parts: seq<string>)
    ensures |parts| >= 1
    ensures forall i :: 0 <= i < |parts| ==> '/' !in parts[i]
  {
    if s == [] then [""]
    else
      var rest := Elements(s[1..]);
      if s[0] == '/' then [""] + rest
      else [[s[0]] + rest[0]] + rest[1..]
  }

  /** "/n1/n2/.../nk" without the special case for the root. */
  function Slashed(p: AbsPath): string
  {
    if p == [] then "" else Slashed(p[..|p| - 1]) + "/" + p[|p| - 1]
  }

  /** The Go string of a clean absolute path. */
  function Render(p: AbsPath): (s: string)
    ensures Rooted(s)
  {
    if p == [] then "/" else RootedSlashed(p); Slashed(p)
  }

  /** Moving one level up; the root is its own parent. */
  function Parent(p: AbsPath): (q: AbsPath)
    ensures Valid(p) ==> Valid(q)
    ensures p != [] ==> q + [p[|p| - 1]] == p
    ensures p == [] ==> q == []
  {
    if p == [] then [] else p[..|p| - 1]
  }

  /** `Parent` applied `n` times. */
  function Ancestor(p: AbsPath, n: nat): (q: AbsPath)
    ensures Valid(p) ==> Valid(q)
    ensures |q| == if n <= |p| then |p| - n else 0
    ensures q == p[..|q|]
  {
    if n == 0 then p else Ancestor(Parent(p), n - 1)
  }

  /** How `Clean` treats one element: skip "" and ".", pop on "..", push a name. */
  function Step(p: AbsPath, e: string): AbsPath
  {
    if e == "" || e == "." then p
    else if e == ".." then Parent(p)
    else p + [e]
  }

  /** Folding elements, last element applied last. */
  function Fold(p: AbsPath, es: seq<string>): (q: AbsPath)
    requires forall i :: 0 <= i < |es| ==> '/' !in es[i]
    ensures Valid(p) ==> Valid(q)
  {
    if es == [] then p else Step(Fold(p, es[..|es| - 1]), es[|es| - 1])
  }

  /** The path a rooted string denotes. */
  function Parse(s: string): (p: AbsPath)
    ensures Valid(p)
  {
    Fold([], Elements(s))
  }

  /** Go's `path.Clean` on a rooted string. */
  function Clean(s: string): (c: string)
    requires Rooted(s)
    ensures Rooted(c)
  {
    Render(Parse(s))
  }

  /** Index of the last '/' in a rooted string. */
  function LastSlash(s: string): (i: nat)
    requires Rooted(s)
    ensures i < |s| && s[i] == '/'
    ensures forall j :: i < j < |s| ==> s[j] != '/'
  {
    if s[|s| - 1] == '/' then |s| - 1 else LastSlash(s[..|s| - 1])
  }

  /** Go's `path.Dir` on a rooted string: clean everything up to the last slash. */
  function Dir(s: string): (d: string)
    requires Rooted(s)
    ensures Rooted(d)
  {
    Clean(s[..LastSlash(s) + 1])
  }

  /** Go's `path.Join(a, b)` for a rooted `a`: the buffer is `a + "/" + b`, then cleaned. */
  function Join(a: string, b: string): (j: string)
    requires Rooted(a)
    ensures Rooted(j)
  {
    Clean(a + "/" + b)
  }

  // ---------------------------------------------------------------------
  // Lemmas connecting the string functions to the segment model.
  // ---------------------------------------------------------------------

  lemma RootedSlashed(p: AbsPath)
    requires p != []
    ensures Rooted(Slashed(p))
  {
    var q := p[..|p| - 1];
    if q != [] {
      RootedSlashed(q);
    }
  }

  /** Splitting at a slash distributes over the two sides. */
  lemma {:induction false} ElementsAppend(a: string, b: string)
    ensures Elements(a + "/" + b) == Elements(a) + Elements(b)
  {
    if a == [] {
      assert a + "/" + b == "/" + b;
      assert ("/" + b)[1..] == b;
    } else {
      assert (a + "/" + b)[1..] == a[1..] + "/" + b;
      ElementsAppend(a[1..], b);
    }
  }

  /** A string without slashes is a single element. */
  lemma {:induction false} ElementsOfName(x: string)
    requires '/' !in x
    ensures Elements(x) == [x]
  {
    if x != [] {
      assert '/' !in x[1..] by {
        forall k | 0 <= k < |x[1..]| ensures x[1..][k] != '/' {
          assert x[1..][k] == x[k + 1];
        }
      }
      ElementsOfName(x[1..]);
      assert [x[0]] + x[1..] == x;
    }
  }

  lemma {:induction false} ElementsOfSlashed(p: AbsPath)
    requires Valid(p)
    ensures Elements(Slashed(p)) == [""] + p
  {
    if p != [] {
      var q, x := p[..|p| - 1], p[|p| - 1];
      ElementsOfSlashed(q);
      ElementsAppend(Slashed(q), x);
      ElementsOfName(x);
      assert q + [x] == p;
    }
  }

  /** Folding over a concatenation is folding twice. */
  lemma {:induction false} FoldAppend(p: AbsPath, xs: seq<string>, ys: seq<string>)
    requires forall i :: 0 <= i < |xs| ==> '/' !in xs[i]
    requires forall i :: 0 <= i < |ys| ==> '/' !in ys[i]
    ensures Fold(p, xs + ys) == Fold(Fold(p, xs), ys)
  {
    if ys != [] {
      var zs := xs + ys;
      assert zs[..|zs| - 1] == xs + ys[..|ys| - 1];
      FoldAppend(p, xs, ys[..|ys| - 1]);
    } else {
      assert xs + ys == xs;
    }
  }

  /** Folding the names of a valid path onto the root rebuilds it. */
  lemma {:induction false} FoldNames(p: AbsPath)
    requires Valid(p)
    ensures Fold([], [""] + p) == p
  {
    if p != [] {
      var q := p[..|p| - 1];
      FoldNames(q);
      assert ([""] + p)[..|p|] == [""] + q;
    } else {
      assert Fold([], [""]) == Step(Fold([], []), "");
    }
  }

  /** Round trip: parsing the rendered string gives the path back. */
  lemma ParseRender(p: AbsPath)
    requires Valid(p)
    ensures Parse(Render(p)) == p
  {
    if p == [] {
      assert Elements("/") == ["", ""] by {
        assert "/"[1..] == "";
      }
      assert Fold([], ["", ""]) == Step(Fold([], [""]), "");
      assert Fold([], [""]) == Step(Fold([], []), "");
    } else {
      ElementsOfSlashed(p);
      FoldNames(p);
    }
  }

  /** The rendering of a valid path is already clean. */
  lemma CleanRender(p: AbsPath)
    requires Valid(p)
    ensures Clean(Render(p)) == Render(p)
  {
    ParseRender(p);
  }

  /** The rendering is injective on valid paths. */
  lemma RenderInjective(p: AbsPath, q: AbsPath)
    requires Valid(p) && Valid(q)
    ensures Render(p) == Render(q) <==> p == q
  {
    if Render(p) == Render(q) {
      ParseRender(p);
      ParseRender(q);
    }
  }

  /** The elements of a rendered path followed by a slash-joined suffix. */
  lemma ElementsRenderAppend(p: AbsPath, r: string)
    requires Valid(p)
    ensures Fold([], Elements(Render(p) + "/" + r)) == Fold(p, Elements(r))
  {
    ElementsAppend(Render(p), r);
    var es := Elements(Render(p));
    FoldAppend([], es, Elements(r));
    ParseRender(p);
  }

  /** `path.Dir` of a clean absolute path drops its last name (the root stays the root). */
  lemma DirRender(p: AbsPath)
    requires Valid(p)
    ensures Dir(Render(p)) == Render(Parent(p))
  {
    var s := Render(p);
    if p == [] {
      assert s[..LastSlash(s) + 1] == "/";
      ParseRender([]);
    } else {
      var q, x := Parent(p), p[|p| - 1];
      assert Valid(q);
      assert s == Slashed(q) + "/" + x;
      LastSlashAfterName(Slashed(q), x);
      assert s[..|Slashed(q)| + 1] == Slashed(q) + "/";
      if q == [] {
        assert Slashed(q) + "/" == "/";
        ParseRender(q);
      } else {
        ElementsRenderAppend(q, "");
        assert Render(q) + "/" + "" == Slashed(q) + "/";
        assert Elements("") == [""];
        assert Fold(q, [""]) == Step(Fold(q, []), "");
      }
    }
  }

  lemma LastSlashAfterName(a: string, x: string)
    requires a == "" || Rooted(a)
    requires '/' !in x
    ensures Rooted(a + "/" + x) && LastSlash(a + "/" + x) == |a|
  {
    var s := a + "/" + x;
    assert s[|a|] == '/';
    assert s[0] == '/' by {
      if a != [] {
        assert s[0] == a[0];
      }
    }
  }

  /** `path.Join` onto a clean absolute path folds the joined elements onto it. */
  lemma JoinRender(p: AbsPath, r: string)
    requires Valid(p)
    ensures Join(Render(p), r) == Render(Fold(p, Elements(r)))
  {
    ElementsRenderAppend(p, r);
  }

  /** Joining a single name appends it. */
  lemma JoinName(p: AbsPath, x: string)
    requires Valid(p) && IsName(x)
    ensures Join(Render(p), x) == Render(p + [x])
    ensures Valid(p + [x])
  {
    JoinRender(p, x);
    ElementsOfName(x);
    assert Fold(p, [x]) == Step(Fold(p, []), x);
  }
}

=== FILE: json.dfy ===
/**
 * package.json as a JSON tree, and the "scripts" patch of `updatePackage`.
 *
 * `json.Unmarshal` into a `map[string]any` yields the top-level object as a
 * Go map (key order is not kept), so a document is a `map<string, Json>`.
 */
module Json {
  import opened Wrappers

  datatype Json =
    | Null
    | Bool(b: bool)
    | Number(n: real)
    | Str(s: string)
    | Array(items: seq<Json>)
    | Object(fields: map<string, Json>)

  /** The decoded top level of package.json. */
  type Doc = map<string, Json>

  const SCRIPTS: string := "scripts"
  const BACKEND: string := "backend"
  const BACKEND_SCRIPT: string := "cd .. && air"
  const DEV_FULL: string := "dev:full"
  const DEV_FULL_SCRIPT: string := "concurrently \"npm run dev\" \"npm run backend\""

  /** The patch applies only when "scripts" is present and is an object. */
  predicate HasScripts(d: Doc)
  {
    SCRIPTS in d && d[SCRIPTS].Object?
  }

  /**
   * Sets scripts["backend"] and scripts["dev:full"]; `None` when "scripts"
   * is absent or not an object (including `null`).
   */
  function PatchScripts(d: Doc): (r: Option<Doc>)
    ensures r.Some? <==> HasScripts(d)
    ensures r.Some? ==>
      var out := r.value;
      && out.Keys == d.Keys
      && (forall k :: k in d && k != SCRIPTS ==> out[k] == d[k])
      && out[SCRIPTS].Object?
      && var before := d[SCRIPTS].fields;
         var after := out[SCRIPTS].fields;
         && after.Keys == before.Keys + {BACKEND, DEV_FULL}
         && after[BACKEND] == Str(BACKEND_SCRIPT)
         && after[DEV_FULL] == Str(DEV_FULL_SCRIPT)
         && (forall k :: k in before && k != BACKEND && k != DEV_FULL ==> after[k] == before[k])
  {
    if SCRIPTS in d && d[SCRIPTS].Object? then
      var scripts := d[SCRIPTS].fields;
      Some(d[SCRIPTS := Object(scripts[BACKEND := Str(BACKEND_SCRIPT)][DEV_FULL := Str(DEV_FULL_SCRIPT)])])
    else None
  }

  /** Patching a patched document changes nothing. */
  lemma PatchIdempotent(d: Doc)
    requires HasScripts(d)
    ensures PatchScripts(PatchScripts(d).value) == PatchScripts(d)
  {
    var once := PatchScripts(d).value;
    var twice := PatchScripts(once).value;
    var a, b := once[SCRIPTS].fields, twice[SCRIPTS].fields;
    assert b.Keys == a.Keys;
    assert forall k :: k in b ==> b[k] == a[k];
    assert b == a;
    assert twice[SCRIPTS] == once[SCRIPTS];
    assert forall k :: k in twice ==> twice[k] == once[k];
    assert twice == once;
  }

  /** Only the two entries are written: a document that already holds them is a fixed point. */
  lemma PatchFixedPoint(d: Doc)
    requires HasScripts(d)
    ensures PatchScripts(d) == Some(d) <==>
      (BACKEND in d[SCRIPTS].fields && d[SCRIPTS].fields[BACKEND] == Str(BACKEND_SCRIPT)
       && DEV_FULL in d[SCRIPTS].fields && d[SCRIPTS].fields[DEV_FULL] == Str(DEV_FULL_SCRIPT))
  {
    var s := d[SCRIPTS].fields;
    if BACKEND in s && s[BACKEND] == Str(BACKEND_SCRIPT) && DEV_FULL in s && s[DEV_FULL] == Str(DEV_FULL_SCRIPT) {
      var out := PatchScripts(d).value;
      assert out[SCRIPTS].fields == s;
      assert out == d;
    }
  }
}

=== FILE: pipeline.dfy ===
/**
 * Error values and the fail-fast runner for external commands.
 *
 * Every external command the scaffolder issues is a `CommandStep` value;
 * whether it succeeds is decided by an oracle, since running processes is
 * outside the model.
 */
module Errors {

  /** An error, carrying exactly the text the Go code builds with `fmt.Errorf`. */
  datatype Error =
    | Fixed(text: string)                       // a message without arguments
    | StepTimedOut(what: string)                // "<what> timed out"
    | Failed(action: string, detail: string)    // "failed to <action>: <detail>"
  {
    function Text(): string
    {
      match this
      case Fixed(t) => t
      case StepTimedOut(w) => w + " timed out"
      case Failed(a, d) => "failed to " + a + ": " + d
    }
  }

  const NAME_REQUIRED: Error := Fixed("project name is required")
  const NO_CWD: Error := Fixed("unable to get current path")
  const NOT_EMPTY: Error := Fixed("the project directory must be empty")
  const UNINITIALIZED: Error := Fixed("file manager is uninitialized")
  const MODULE_NAME_EMPTY: Error := Fixed("go module name cannot be empty")
  const NO_SCRIPTS: Error := Fixed("failed to update scripts parameter in package.json")
  const NO_RIGHTS: Error := Fixed("application requires elevated rights")

  /** "the path <p> is invalid" */
  function PathInvalid(p: string): Error
  {
    Fixed("the path " + p + " is invalid")
  }
}

module Pipeline {
  import opened Wrappers
  import opened Errors

  /**
   * One external command: program and arguments, the directory it runs in,
   * the seconds of the context it runs under, and the two phrases its
   * error messages are built from.
   */
  datatype CommandStep = CommandStep(
    program: string,
    args: seq<string>,
    dir: string,
    budget: nat,
    timeoutLabel: string,
    failLabel: string)

  /** How `cmd.Run()` ended: success, the context's deadline, or any other error. */
  datatype RunOutcome = Ran | DeadlineExceeded | ExitError(detail: string)

  /** The error a step reports for a failed run. */
  function StepError(s: CommandStep, o: RunOutcome): (e: Error)
    requires !o.Ran?
    ensures o.DeadlineExceeded? ==> e.Text() == s.timeoutLabel + " timed out"
    ensures o.ExitError? ==> e.Text() == "failed to " + s.failLabel + ": " + o.detail
  {
    if o.DeadlineExceeded? then StepTimedOut(s.timeoutLabel) else Failed(s.failLabel, o.detail)
  }

  /** The steps that were started, and the error that stopped the run, if any. */
  datatype PipelineRun = PipelineRun(ran: seq<CommandStep>, err: Option<Error>)

  /**
   * Runs the steps in order and stops at the first one that does not succeed;
   * nothing is undone.
   */
  function RunSteps(steps: seq<CommandStep>, run: CommandStep -> RunOutcome): (r: PipelineRun)
    ensures |r.ran| <= |steps| && r.ran == steps[..|r.ran|]
    ensures r.err.None? <==> forall i :: 0 <= i < |steps| ==> run(steps[i]).Ran?
    ensures r.err.None? ==> r.ran == steps
    ensures r.err.Some? ==>
      && |r.ran| >= 1
      && (forall i :: 0 <= i < |r.ran| - 1 ==> run(r.ran[i]).Ran?)
      && !run(r.ran[|r.ran| - 1]).Ran?
      && r.err.value == StepError(r.ran[|r.ran| - 1], run(r.ran[|r.ran| - 1]))
  {
    if steps == [] then PipelineRun([], None)
    else
      var o := run(steps[0]);
      if o.Ran? then
        var rest := RunSteps(steps[1..], run);
        assert forall i :: 1 <= i < |steps| ==> steps[i] == steps[1..][i - 1];
        PipelineRun([steps[0]] + rest.ran, rest.err)
      else PipelineRun([steps[0]], Some(StepError(steps[0], o)))
  }

  /** Putting steps that already ran in front of a run. */
  function After(done: seq<CommandStep>, r: PipelineRun): PipelineRun
  {
    PipelineRun(done + r.ran, r.err)
  }

  /** Running two lists back to back is running their concatenation. */
  lemma {:induction false} RunStepsAppend(a: seq<CommandStep>, b: seq<CommandStep>, run: CommandStep -> RunOutcome)
    ensures RunSteps(a + b, run) ==
      (if RunSteps(a, run).err.Some? then RunSteps(a, run) else After(a, RunSteps(b, run)))
  {
    if a == [] {
      assert a + b == b;
    } else {
      assert (a + b)[0] == a[0];
      assert (a + b)[1..] == a[1..] + b;
      if run(a[0]).Ran? {
        RunStepsAppend(a[1..], b, run);
        assert [a[0]] + a[1..] == a;
      }
    }
  }

  lemma AfterAfter(a: seq<CommandStep>, b: seq<CommandStep>, r: PipelineRun)
    ensures After(a, After(b, r)) == After(a + b, r)
  {
    assert a + (b + r.ran) == (a + b) + r.ran;
  }

  /** One step of `RunSteps` from position `i`. */
  lemma RunStepsAt(steps: seq<CommandStep>, i: nat, run: CommandStep -> RunOutcome)
    requires i < |steps|
    ensures run(steps[i]).Ran? ==>
      RunSteps(steps[i..], run) == After([steps[i]], RunSteps(steps[i + 1..], run))
    ensures !run(steps[i]).Ran? ==>
      RunSteps(steps[i..], run) == PipelineRun([steps[i]], Some(StepError(steps[i], run(steps[i]))))
  {
    assert steps[i..][0] == steps[i];
    assert steps[i..][1..] == steps[i + 1..];
  }

  /** One more element of a prefix; stated apart so the loop's invariant step stays cheap. */
  lemma TakeOneMore<T>(s: seq<T>, i: nat)
    requires i < |s|
    ensures s[..i + 1] == s[..i] + [s[i]]
  {
  }

  /**
   * The table-driven form of the step blocks that `initModule`, `initVite`
   * and `initPackages` write out one after another (each runs a command and
   * returns on its first error): a loop over the steps that computes what
   * `RunSteps` specifies.
   */
  method RunAll(steps: seq<CommandStep>, run: CommandStep -> RunOutcome) returns (ran: seq<CommandStep>, err: Option<Error>)
    ensures PipelineRun(ran, err) == RunSteps(steps, run)
  {
    ran := [];
    err := None;
    var i := 0;
    while i < |steps|
      invariant 0 <= i <= |steps|
      invariant ran == steps[..i]
      invariant RunSteps(steps, run) == After(ran, RunSteps(steps[i..], run))
    {
      var o := run(steps[i]);
      RunStepsAt(steps, i, run);
      if !o.Ran? {
        AfterAfter(ran, [steps[i]], PipelineRun([], Some(StepError(steps[i], o))));
        ran := ran + [steps[i]];
        err := Some(StepError(steps[i], o));
        return;
      }
      AfterAfter(ran, [steps[i]], RunSteps(steps[i + 1..], run));
      TakeOneMore(steps, i);
      ran := ran + [steps[i]];
      i := i + 1;
    }
    assert steps[i..] == [];
  }
}

=== FILE: project.dfy ===
/**
 * project_config.go: resolving and validating the project directory,
 * creating it, and the two stages guarded by the file manager being set.
 */
module Project {
  import opened Wrappers
  import opened Errors
  import opened Sys
  import opened Files
  import GoPath
  import GoFmt

  /** `ProjectConfig`; `files` is `None` while the `Files` pointer is nil. */
  datatype Config = Config(
    name: string,
    directory: string,
    typescript: bool,
    port: int,
    devMode: bool,
    files: Option<FileManager>)

  /** The configuration after a stage, where the world was left, and the error returned. */
  datatype Outcome = Outcome(cfg: Config, world: World, err: Option<Error>)

  // ---------------------------------------------------------------------
  // Relative directory resolution
  // ---------------------------------------------------------------------

  /** The directory is resolved against the working directory when empty or starting with ".". */
  predicate IsRelative(dir: string)
  {
    |dir| <= 0 || dir[0] == '.'
  }

  predicate LeadingParent(s: string)
  {
    |s| >= 3 && s[..3] == "../"
  }

  /** `n` copies of "../". */
  function Parents(n: nat): (s: string)
    ensures |s| == 3 * n
  {
    if n == 0 then "" else "../" + Parents(n - 1)
  }

  /** The directory with every leading "../" removed, and how many were removed. */
  function StripParents(dir: string): (r: (string, nat))
    ensures dir == Parents(r.1) + r.0
    ensures !LeadingParent(r.0)
    decreases |dir|
  {
    if LeadingParent(dir) then
      var (rest, n) := StripParents(dir[3..]);
      assert dir == dir[..3] + dir[3..];
      assert Parents(n + 1) + rest == "../" + (Parents(n) + rest);
      (rest, n + 1)
    else (dir, 0)
  }

  /** `n` applications of `path.Dir`. */
  function WalkUp(loc: RootedPath, n: nat): RootedPath
    decreases n
  {
    if n == 0 then loc else WalkUp(GoPath.Dir(loc), n - 1)
  }

  /**
   * The location `Validate` computes for a relative directory from the
   * working directory: one `path.Dir` per leading "../", then `path.Join`
   * of the project name (nothing left), of the remainder (anything but
   * "./"), or nothing (exactly "./").
   */
  function Resolve(cwd: GoPath.CleanPath, name: string, dir: string): RootedPath
  {
    var (rest, ups) := StripParents(dir);
    var loc := WalkUp(GoPath.Render(cwd), ups);
    if |rest| <= 0 then GoPath.Join(loc, name)
    else if rest != "./" then GoPath.Join(loc, rest)
    else loc
  }

  /** The same location on segment lists: an ancestor of the working directory, extended. */
  function ResolveSegments(cwd: GoPath.CleanPath, name: string, dir: string): (p: GoPath.CleanPath)
    ensures StripParents(dir).0 == "./" ==> p == GoPath.Ancestor(cwd, StripParents(dir).1)
  {
    var (rest, ups) := StripParents(dir);
    var base := GoPath.Ancestor(cwd, ups);
    if |rest| <= 0 then GoPath.Fold(base, GoPath.Elements(name))
    else if rest != "./" then GoPath.Fold(base, GoPath.Elements(rest))
    else base
  }

  lemma WalkUpStep(loc: RootedPath, n: nat)
    requires n > 0
    ensures WalkUp(loc, n) == WalkUp(GoPath.Dir(loc), n - 1)
  {
  }

  lemma AncestorStep(p: GoPath.AbsPath, n: nat)
    requires n > 0
    ensures GoPath.Ancestor(p, n) == GoPath.Ancestor(GoPath.Parent(p), n - 1)
  {
  }

  /** Each `path.Dir` moves one level up, and the root stays the root. */
  lemma WalkUpRender(p: GoPath.CleanPath, n: nat)
    ensures WalkUp(GoPath.Render(p), n) == GoPath.Render(GoPath.Ancestor(p, n))
    decreases n
  {
    if n > 0 {
      WalkUpRender(GoPath.Parent(p), n - 1);
      WalkUpRenderStep(p, n);
    }
  }

  lemma WalkUpRenderStep(p: GoPath.CleanPath, n: nat)
    requires n > 0
    requires WalkUp(GoPath.Render(GoPath.Parent(p)), n - 1) == GoPath.Render(GoPath.Ancestor(GoPath.Parent(p), n - 1))
    ensures WalkUp(GoPath.Render(p), n) == GoPath.Render(GoPath.Ancestor(p, n))
  {
    WalkUpStep(GoPath.Render(p), n);
    GoPath.DirRender(p);
    AncestorStep(p, n);
  }

  /** One more step of the walk is one more `path.Dir` at the end. */
  lemma {:induction false} WalkUpSucc(loc: RootedPath, n: nat)
    ensures WalkUp(loc, n + 1) == GoPath.Dir(WalkUp(loc, n))
    decreases n
  {
    if n > 0 {
      WalkUpSucc(GoPath.Dir(loc), n - 1);
    }
  }

  /** The resolved location is the rendering of a clean absolute path, so it is itself clean. */
  lemma ResolveIsClean(cwd: GoPath.CleanPath, name: string, dir: string)
    ensures Resolve(cwd, name, dir) == GoPath.Render(ResolveSegments(cwd, name, dir))
    ensures GoPath.Clean(Resolve(cwd, name, dir)) == Resolve(cwd, name, dir)
  {
    var (rest, ups) := StripParents(dir);
    var base := GoPath.Ancestor(cwd, ups);
    WalkUpRender(cwd, ups);
    if |rest| <= 0 {
      GoPath.JoinRender(base, name);
    } else if rest != "./" {
      GoPath.JoinRender(base, rest);
    }
    GoPath.CleanRender(ResolveSegments(cwd, name, dir));
  }

  /** A plain relative name ends up as a new last segment of the location reached. */
  lemma ResolveName(cwd: GoPath.CleanPath, name: string, ups: nat, sub: string)
    requires GoPath.IsName(name) && GoPath.IsName(sub) && !LeadingParent(sub)
    ensures Resolve(cwd, name, Parents(ups)) == GoPath.Render(GoPath.Ancestor(cwd, ups) + [name])
    ensures Resolve(cwd, name, Parents(ups) + sub) == GoPath.Render(GoPath.Ancestor(cwd, ups) + [sub])
    ensures Resolve(cwd, name, Parents(ups) + "./") == GoPath.Render(GoPath.Ancestor(cwd, ups))
  {
    StripParentsOf(ups, "");
    StripParentsOf(ups, sub);
    StripParentsOf(ups, "./");
    assert Parents(ups) + "" == Parents(ups);
    WalkUpRender(cwd, ups);
    GoPath.JoinName(GoPath.Ancestor(cwd, ups), name);
    GoPath.JoinName(GoPath.Ancestor(cwd, ups), sub);
  }

  /** Appending one more "../" at the end is the same as in front. */
  lemma {:induction false} ParentsSucc(n: nat)
    ensures Parents(n + 1) == Parents(n) + "../"
  {
    if n > 0 {
      ParentsSucc(n - 1);
      assert Parents(n + 1) == "../" + (Parents(n - 1) + "../");
    }
  }

  /** Moving one leading "../" of the directory into the count. */
  lemma ParentsShift(n: nat, dir: string)
    requires LeadingParent(dir)
    ensures Parents(n + 1) + dir[3..] == Parents(n) + dir
  {
    ParentsSucc(n);
    assert dir == "../" + dir[3..] by {
      assert dir == dir[..3] + dir[3..];
    }
    assert (Parents(n) + "../") + dir[3..] == Parents(n) + ("../" + dir[3..]);
  }

  /** Removing leading "../" from `n` copies followed by other text recovers both. */
  lemma {:induction false} StripParentsOf(n: nat, rest: string)
    requires !LeadingParent(rest)
    ensures StripParents(Parents(n) + rest) == (rest, n)
  {
    if n > 0 {
      var s := Parents(n) + rest;
      assert s == "../" + (Parents(n - 1) + rest);
      assert s[..3] == "../" && s[3..] == Parents(n - 1) + rest;
      StripParentsOf(n - 1, rest);
    } else {
      assert Parents(n) + rest == rest;
    }
  }

  /** "../../sub" from /a/b/c is /a/sub. */
  lemma ResolveExampleSub()
    ensures Resolve(["a", "b", "c"], "app", "../../sub") == "/a/sub"
  {
    SubPieces();
    PlainName("sub");
    PlainName("app");
    ResolveName(["a", "b", "c"], "app", 2, "sub");
  }

  lemma SubPieces()
    ensures Parents(2) + "sub" == "../../sub"
    ensures GoPath.Ancestor(["a", "b", "c"], 2) == ["a"]
    ensures GoPath.Render(["a"] + ["sub"]) == "/a/sub"
  {
    assert Parents(1) == "../";
    assert ["a"] + ["sub"] == ["a", "sub"];
    assert GoPath.Slashed(["a"]) == "/a";
  }

  lemma PlainName(x: string)
    requires |x| >= 3 && '/' !in x && x[0] != '.'
    ensures GoPath.IsName(x) && !LeadingParent(x)
  {
    assert x[..3][0] == x[0];
  }

  lemma RenderThree(x: string, y: string, z: string)
    requires '/' !in x && '/' !in y && '/' !in z
    ensures GoPath.Render([x, y]) == "/" + x + "/" + y
    ensures GoPath.Render([x, y] + [z]) == "/" + x + "/" + y + "/" + z
  {
    assert [x, y] + [z] == [x, y, z];
    assert [x, y, z][..2] == [x, y];
    assert [x, y][..1] == [x];
    assert GoPath.Slashed([x]) == "/" + x;
  }

  /** Walking above the root stops at the root. */
  lemma ResolveExampleAboveRoot()
    ensures Resolve(["a"], "app", "../../../x") == "/x"
  {
    AboveRootPieces();
    PlainName("app");
    ResolveName(["a"], "app", 3, "x");
  }

  lemma AboveRootPieces()
    ensures Parents(3) + "x" == "../../../x"
    ensures GoPath.IsName("x") && !LeadingParent("x")
    ensures GoPath.Ancestor(["a"], 3) == []
    ensures GoPath.Render([] + ["x"]) == "/x"
  {
    assert Parents(1) == "../";
    assert Parents(2) == "../../";
    assert "x"[0] == 'x';
    assert [] + ["x"] == ["x"];
    assert ["x"][..0] == [];
    assert GoPath.Slashed(["x"]) == "/x";
    assert GoPath.Ancestor(["a"], 1) == [];
  }

  /** An empty directory is the project name under the working directory; "./" is the working directory. */
  lemma ResolveExampleHere()
    ensures Resolve(["a", "b"], "app", "") == "/a/b/app"
    ensures Resolve(["a", "b"], "app", "./") == "/a/b"
  {
    HerePieces();
    ResolveName(["a", "b"], "app", 0, "app");
  }

  lemma HerePieces()
    ensures Parents(0) == "" && Parents(0) + "./" == "./"
    ensures GoPath.IsName("app") && !LeadingParent("app")
    ensures GoPath.Ancestor(["a", "b"], 0) == ["a", "b"]
    ensures GoPath.Render(["a", "b"]) == "/a/b"
    ensures GoPath.Render(["a", "b"] + ["app"]) == "/a/b/app"
  {
    PlainName("app");
    RenderThree("a", "b", "app");
  }

  /** The resolution loop as the Go code writes it: strip one "../", go one level up. */
  method ResolveRelative(cwd: GoPath.CleanPath, name: string, directory: string) returns (loc: RootedPath)
    ensures loc == Resolve(cwd, name, directory)
  {
    var dir := directory;
    loc := GoPath.Render(cwd);
    ghost var ups: nat := 0;
    while |dir| >= 3 && dir[..3] == "../"
      invariant directory == Parents(ups) + dir
      invariant loc == WalkUp(GoPath.Render(cwd), ups)
      decreases |dir|
    {
      WalkUpSucc(GoPath.Render(cwd), ups);
      ParentsShift(ups, dir);
      dir := dir[3..];
      loc := GoPath.Dir(loc);
      ups := ups + 1;
    }
    StripParentsOf(ups, dir);
    if |dir| <= 0 {
      loc := GoPath.Join(loc, name);
    } else if dir != "./" {
      loc := GoPath.Join(loc, dir);
    }
  }

  // ---------------------------------------------------------------------
  // Validate, ValidatePath, CreateDirectory
  // ---------------------------------------------------------------------

  /** `ValidatePath`: the directory must be readable and have no entries; it is never changed. */
  function ValidatePath(cfg: Config, env: Env, w: World): (r: Outcome)
    ensures r.cfg == cfg && r.world == Record(w, ReadDir(cfg.directory))
    ensures cfg.directory !in env.listing ==> r.err == Some(PathInvalid(cfg.directory))
    ensures cfg.directory in env.listing ==>
      (r.err.None? <==> |env.listing[cfg.directory]| == 0)
    ensures cfg.directory in env.listing && |env.listing[cfg.directory]| > 0 ==> r.err == Some(NOT_EMPTY)
    ensures r.err.Some? ==> r.err == Some(PathInvalid(cfg.directory)) || r.err == Some(NOT_EMPTY)
  {
    var w1 := Record(w, ReadDir(cfg.directory));
    if cfg.directory !in env.listing then Outcome(cfg, w1, Some(PathInvalid(cfg.directory)))
    else if |env.listing[cfg.directory]| > 0 then Outcome(cfg, w1, Some(NOT_EMPTY))
    else Outcome(cfg, w1, None)
  }

  /** The invalid-path message is the `%v` format filled with the directory. */
  lemma PathInvalidFormat(dir: string)
    ensures GoFmt.Supported("the path %v is invalid")
    ensures PathInvalid(dir).Text() == GoFmt.Sprintf("the path %v is invalid", dir)
  {
    GoFmt.SprintfOneHole("the path ", " is invalid", dir);
    assert "the path " + "%v" + " is invalid" == "the path %v is invalid";
  }

  /**
   * `CreateDirectory`: only `os.ErrExist` leads to the emptiness check, with
   * no manager set; success or any other error sets a manager at the
   * directory, without checking it.
   */
  function CreateDirectory(cfg: Config, env: Env, w: World): (r: Outcome)
    requires GoPath.Rooted(cfg.directory)
    ensures r.cfg == cfg.(files := r.cfg.files) && r.world.disk == w.disk
    ensures |r.world.trace| > |w.trace| && r.world.trace[..|w.trace| + 1] == w.trace + [MkdirAll(cfg.directory)]
    ensures ReadDir(cfg.directory) in r.world.trace[|w.trace|..] <==> env.mkdir(cfg.directory) == ErrExist
    ensures r.cfg.files != cfg.files ==> r.cfg.files == Some(FileManager(cfg.directory))
    ensures cfg.files.None? ==> (r.cfg.files.Some? <==> env.mkdir(cfg.directory) != ErrExist)
    ensures r.err.Some? ==> env.mkdir(cfg.directory) == ErrExist
    ensures env.mkdir(cfg.directory) == ErrExist ==>
      (r.err.None? <==> cfg.directory in env.listing && |env.listing[cfg.directory]| == 0)
    ensures env.mkdir(cfg.directory) == ErrExist && cfg.directory !in env.listing ==>
      r.err == Some(PathInvalid(cfg.directory))
    ensures env.mkdir(cfg.directory) == ErrExist && cfg.directory in env.listing && |env.listing[cfg.directory]| > 0 ==>
      r.err == Some(NOT_EMPTY)
  {
    var w1 := Record(w, MkdirAll(cfg.directory));
    if env.mkdir(cfg.directory) == ErrExist then
      var r := ValidatePath(cfg, env, w1);
      assert r.world.trace[|w.trace|..] == [MkdirAll(cfg.directory), ReadDir(cfg.directory)];
      r
    else Outcome(cfg.(files := Some(FileManager(cfg.directory))), w1, None)
  }

  /** `Validate`: the name first, then either resolution and creation, or the emptiness check. */
  function Validate(cfg: Config, env: Env, w: World): (r: Outcome)
    ensures r.cfg == cfg.(directory := r.cfg.directory, files := r.cfg.files) && r.world.disk == w.disk
    ensures r.cfg.files != cfg.files ==> r.cfg.files.Some? && r.cfg.files.value.path == r.cfg.directory
    ensures |cfg.name| > 0 && IsRelative(cfg.directory) && env.cwd.None? ==>
      r == Outcome(cfg, Record(w, Getwd), Some(NO_CWD))
  {
    if |cfg.name| <= 0 then Outcome(cfg, w, Some(NAME_REQUIRED))
    else if IsRelative(cfg.directory) then
      var w1 := Record(w, Getwd);
      match env.cwd
      case None => Outcome(cfg, w1, Some(NO_CWD))
      case Some(cwd) =>
        CreateDirectory(cfg.(directory := Resolve(cwd, cfg.name, cfg.directory)), env, w1)
    else ValidatePath(cfg, env, w)
  }

  /** An empty name fails before any path work or file-system call. */
  lemma ValidateNameFirst(cfg: Config, env: Env, w: World)
    requires |cfg.name| == 0
    ensures Validate(cfg, env, w) == Outcome(cfg, w, Some(NAME_REQUIRED))
  {
  }

  /**
   * The branch taken: with a name, the first call is `os.Getwd` exactly
   * when the directory is relative, and `os.ReadDir` of the unchanged
   * directory otherwise.
   */
  lemma ValidateBranch(cfg: Config, env: Env, w: World)
    requires |cfg.name| > 0
    ensures var r := Validate(cfg, env, w);
      && |r.world.trace| > |w.trace| && r.world.trace[..|w.trace|] == w.trace
      && (r.world.trace[|w.trace|] == Getwd <==> IsRelative(cfg.directory))
      && (!IsRelative(cfg.directory) ==> r.world.trace[|w.trace|] == ReadDir(cfg.directory))
  {
    if IsRelative(cfg.directory) && env.cwd.Some? {
      var loc := Resolve(env.cwd.value, cfg.name, cfg.directory);
      var w1 := Record(w, Getwd);
      TraceExtends(w, w1, CreateDirectory(cfg.(directory := loc), env, w1).world, Getwd);
    }
  }

  /** A trace that extends `w1`, itself `w` plus one call, starts with that call after `w`. */
  lemma TraceExtends(w: World, w1: World, w2: World, e: Effect)
    requires w1.trace == w.trace + [e]
    requires |w2.trace| > |w1.trace| && w2.trace[..|w1.trace|] == w1.trace
    ensures |w2.trace| > |w.trace| && w2.trace[..|w.trace|] == w.trace && w2.trace[|w.trace|] == e
  {
    assert w2.trace[..|w.trace|] == w2.trace[..|w1.trace|][..|w.trace|];
    assert w2.trace[|w.trace|] == w2.trace[..|w1.trace|][|w.trace|];
  }

  /**
   * A relative directory that resolves is replaced by the resolved
   * location; the manager is rooted there unless `MkdirAll` said it exists.
   */
  lemma ValidateRelative(cfg: Config, env: Env, w: World, cwd: GoPath.CleanPath)
    requires |cfg.name| > 0 && IsRelative(cfg.directory) && env.cwd == Some(cwd)
    ensures var r := Validate(cfg, env, w);
      var loc := Resolve(cwd, cfg.name, cfg.directory);
      && r.cfg.directory == loc
      && r.world.trace == w.trace + [Getwd, MkdirAll(loc)] + (if env.mkdir(loc) == ErrExist then [ReadDir(loc)] else [])
      && (env.mkdir(loc) != ErrExist ==> r.err.None? && r.cfg.files == Some(FileManager(loc)))
      && (env.mkdir(loc) == ErrExist ==> r.cfg.files == cfg.files)
  {
  }

  /**
   * A directory that is not relative is only checked: it is never changed,
   * no manager is set, and the only call is `os.ReadDir`.
   */
  lemma ValidateAbsolute(cfg: Config, env: Env, w: World)
    requires |cfg.name| > 0 && !IsRelative(cfg.directory)
    ensures var r := Validate(cfg, env, w);
      && r == ValidatePath(cfg, env, w)
      && r.cfg == cfg
      && r.world.trace == w.trace + [ReadDir(cfg.directory)]
      && (r.err.None? <==> cfg.directory in env.listing && |env.listing[cfg.directory]| == 0)
  {
  }

  // ---------------------------------------------------------------------
  // The stages behind the nil guard
  // ---------------------------------------------------------------------

  /** `InstallModule`: fails when no manager is set, and is `Init` otherwise. */
  function InstallModule(cfg: Config, env: Env, w: World): (s: Status)
    ensures s.world.disk == w.disk
    ensures s.err.None? ==> cfg.files.Some? && |cfg.name| > 0
  {
    match cfg.files
    case None => Status(w, Some(UNINITIALIZED))
    case Some(fm) => Files.Init(fm, cfg.name, cfg.typescript, env, w)
  }

  /**
   * With no manager, installation fails before any call. With one, an
   * empty module name fails before any call too, and otherwise the seven
   * install commands run fail-fast.
   */
  lemma InstallModuleGuard(cfg: Config, env: Env, w: World)
    ensures var s := InstallModule(cfg, env, w);
      && (cfg.files.None? ==> s == Status(w, Some(UNINITIALIZED)))
      && (cfg.files.Some? && |cfg.name| == 0 ==> s == Status(w, Some(MODULE_NAME_EMPTY)))
      && (cfg.files.Some? && |cfg.name| > 0 ==>
            s == ExecSteps(env, w, InstallSteps(cfg.files.value, cfg.name, cfg.typescript)))
  {
    if cfg.files.Some? {
      InitIsPipeline(cfg.files.value, cfg.name, cfg.typescript, env, w);
    }
  }

  /** `ProjectConfig.ApplyDefaults`: the manager's defaults with the formatted port. */
  function ApplyDefaults(cfg: Config, env: Env, w: World): (s: Status)
    ensures s.err.None? ==> cfg.files.Some?
  {
    match cfg.files
    case None => Status(w, Some(UNINITIALIZED))
    case Some(fm) => Files.ApplyDefaults(fm, GoFmt.PortString(cfg.port), env, w)
  }

  /**
   * With no manager, the defaults fail before any call. With one, they make
   * a non-empty prefix of the defaults plan, and all of it on success.
   */
  lemma ApplyDefaultsGuard(cfg: Config, env: Env, w: World)
    ensures var s := ApplyDefaults(cfg, env, w);
      && (cfg.files.None? ==> s == Status(w, Some(UNINITIALIZED)))
      && (cfg.files.Some? ==> FollowsPlan(w, s, DefaultsPlan(cfg.files.value)))
  {
    if cfg.files.Some? {
      ApplyDefaultsFollowsPlan(cfg.files.value, GoFmt.PortString(cfg.port), env, w);
    }
  }
}

=== FILE: sys.dfy ===
/**
 * The operating system as the scaffolder sees it: oracles for everything
 * outside the model, and a trace of every call the program makes.
 */
module Sys {
  import opened Wrappers
  import opened Errors
  import opened Pipeline
  import GoPath
  import Json

  /** How `os.MkdirAll` ended. */
  datatype MkdirResult = MkdirOk | ErrExist | MkdirFailed(detail: string)

  /** A file-system call on one path. */
  datatype FileCall =
    | Create(path: string)      // os.Create: O_RDWR | O_CREATE | O_TRUNC
    | OpenRw(path: string)      // os.OpenFile(path, O_RDWR, ...)
    | OpenTrunc(path: string)   // os.OpenFile(path, O_RDWR | O_TRUNC, ...)
    | ReadFile(path: string)    // os.ReadFile
    | WriteAll(path: string)    // (*os.File).WriteString on the handle just opened

  /** One interaction with the operating system, in the order it happened. */
  datatype Effect =
    | Getwd
    | ReadDir(path: string)
    | MkdirAll(path: string)
    | Exec(step: CommandStep)
    | File(call: FileCall)

  /**
   * What the outside world answers:
   *  - `cwd`: `os.Getwd`, `None` when it fails;
   *  - `listing`: `os.ReadDir`, the entries of every readable directory;
   *  - `mkdir`, `run`: the outcome of `os.MkdirAll` and of each command;
   *  - `fault`: the error text of a file call that fails for a reason of the OS's own;
   *  - `unmarshal`, `marshal`: `encoding/json` between bytes and the tree.
   */
  datatype Env = Env(
    cwd: Option<GoPath.CleanPath>,
    listing: map<string, seq<string>>,
    mkdir: string -> MkdirResult,
    run: CommandStep -> RunOutcome,
    fault: FileCall -> Option<string>,
    unmarshal: string -> Result<Json.Doc, string>,
    marshal: Json.Doc -> string)

  /** The files the run touches (with the contents the commands left) and the trace so far. */
  datatype World = World(disk: map<string, string>, trace: seq<Effect>)

  /** Where a stage left the world, and the error it returned (`None` for nil). */
  datatype Status = Status(world: World, err: Option<Error>)

  function Record(w: World, e: Effect): (w': World)
    ensures w'.disk == w.disk && w'.trace == w.trace + [e]
  {
    w.(trace := w.trace + [e])
  }

  /** The trace entries of the commands that were started, in order. */
  function Execs(steps: seq<CommandStep>): (es: seq<Effect>)
    ensures |es| == |steps|
    ensures forall i :: 0 <= i < |steps| ==> es[i] == Exec(steps[i])
  {
    if steps == [] then [] else [Exec(steps[0])] + Execs(steps[1..])
  }

  lemma ExecsAppend(a: seq<CommandStep>, b: seq<CommandStep>)
    ensures Execs(a + b) == Execs(a) + Execs(b)
  {
    var l, r := Execs(a + b), Execs(a) + Execs(b);
    forall i | 0 <= i < |a + b|
      ensures l[i] == r[i]
    {
      if i < |a| {
        assert (a + b)[i] == a[i];
      } else {
        assert (a + b)[i] == b[i - |a|];
      }
    }
  }

  /** Runs the steps fail-fast, recording each command that was started. */
  function ExecSteps(env: Env, w: World, steps: seq<CommandStep>): (s: Status)
    ensures s.world.disk == w.disk
    ensures s.world.trace == w.trace + Execs(RunSteps(steps, env.run).ran)
    ensures s.err == RunSteps(steps, env.run).err
  {
    var r := RunSteps(steps, env.run);
    Status(w.(trace := w.trace + Execs(r.ran)), r.err)
  }

  /** Running two lists back to back is running their concatenation. */
  lemma ExecStepsAppend(env: Env, w: World, a: seq<CommandStep>, b: seq<CommandStep>)
    ensures var s := ExecSteps(env, w, a);
      ExecSteps(env, w, a + b) == if s.err.Some? then s else ExecSteps(env, s.world, b)
  {
    RunStepsAppend(a, b, env.run);
    if RunSteps(a, env.run).err.None? {
      ExecStepsAppendRan(env, w, a, b);
    }
  }

  lemma ExecStepsAppendRan(env: Env, w: World, a: seq<CommandStep>, b: seq<CommandStep>)
    requires RunSteps(a, env.run).err.None?
    requires RunSteps(a + b, env.run) == After(a, RunSteps(b, env.run))
    ensures ExecSteps(env, w, a + b) == ExecSteps(env, ExecSteps(env, w, a).world, b)
  {
    var rb := RunSteps(b, env.run);
    ExecsAppend(a, rb.ran);
    AppendAssoc(w.trace, Execs(a), Execs(rb.ran));
  }

  /** Regrouping three appended traces; a separate step keeps the trace proofs within the solver's budget. */
  lemma AppendAssoc<T>(x: seq<T>, y: seq<T>, z: seq<T>)
    ensures x + (y + z) == (x + y) + z
  {
  }

  lemma ExecsPrefix(steps: seq<CommandStep>, n: nat)
    requires n <= |steps|
    ensures Execs(steps[..n]) == Execs(steps)[..n]
  {
  }

  /**
   * A stage made a non-empty prefix of the calls in `plan` and no others, and
   * made all of them if it returned no error.
   */
  predicate FollowsPlan(w: World, s: Status, plan: seq<Effect>)
  {
    && |w.trace| < |s.world.trace| <= |w.trace| + |plan|
    && s.world.trace == w.trace + plan[..|s.world.trace| - |w.trace|]
    && (s.err.None? ==> s.world.trace == w.trace + plan)
  }

  /** A stage that fails ends the plan of any sequence it starts. */
  lemma FollowsPlanStop(w: World, s: Status, a: seq<Effect>, b: seq<Effect>)
    requires FollowsPlan(w, s, a) && s.err.Some?
    ensures FollowsPlan(w, s, a + b)
  {
    var k := |s.world.trace| - |w.trace|;
    assert (a + b)[..k] == a[..k];
  }

  /** A stage that succeeds hands the rest of the plan to the next stage. */
  lemma FollowsPlanThen(w: World, s1: Status, s2: Status, a: seq<Effect>, b: seq<Effect>)
    requires FollowsPlan(w, s1, a) && s1.err.None?
    requires FollowsPlan(s1.world, s2, b)
    ensures FollowsPlan(w, s2, a + b)
  {
    var k := |s2.world.trace| - |s1.world.trace|;
    assert (a + b)[..|a| + k] == a + b[..k];
  }

  /** A non-empty command list follows the plan of its commands. */
  lemma ExecStepsFollowPlan(env: Env, w: World, steps: seq<CommandStep>)
    requires steps != []
    ensures FollowsPlan(w, ExecSteps(env, w, steps), Execs(steps))
  {
    var r := RunSteps(steps, env.run);
    ExecsPrefix(steps, |r.ran|);
  }

  /**
   * Given one check per planned call (whether that call, and the work done
   * right after it, goes through), a stage returns nil exactly when every
   * check holds, and otherwise stops right after the first call whose check
   * fails: that call is the last one it made.
   */
  predicate StopsAtFirstFailure(w: World, s: Status, ok: seq<bool>)
  {
    var k := |s.world.trace| - |w.trace|;
    && (s.err.None? <==> forall i :: 0 <= i < |ok| ==> ok[i])
    && (s.err.Some? ==> 1 <= k <= |ok| && !ok[k - 1] && forall i :: 0 <= i < k - 1 ==> ok[i])
  }

  /** With a plan, the last call a failing stage made is the planned call whose check failed. */
  lemma LastCallFailed(w: World, s: Status, plan: seq<Effect>, ok: seq<bool>)
    requires |ok| == |plan|
    requires FollowsPlan(w, s, plan) && StopsAtFirstFailure(w, s, ok) && s.err.Some?
    ensures var k := |s.world.trace| - |w.trace|;
      && s.world.trace[|s.world.trace| - 1] == plan[k - 1] && !ok[k - 1]
      && forall i :: 0 <= i < k - 1 ==> ok[i]
  {
    var k := |s.world.trace| - |w.trace|;
    assert s.world.trace[|s.world.trace| - 1] == plan[..k][k - 1];
  }

  /** A stage that fails ends the checks of any sequence it starts. */
  lemma StopsAtFirstFailureStop(w: World, s: Status, a: seq<bool>, b: seq<bool>)
    requires StopsAtFirstFailure(w, s, a) && s.err.Some?
    ensures StopsAtFirstFailure(w, s, a + b)
  {
    var k := |s.world.trace| - |w.trace|;
    assert (a + b)[k - 1] == a[k - 1];
  }

  /** A stage that made all its calls and succeeded hands the rest of the checks to the next stage. */
  lemma StopsAtFirstFailureThen(w: World, s1: Status, s2: Status, a: seq<bool>, b: seq<bool>)
    requires StopsAtFirstFailure(w, s1, a) && s1.err.None? && |s1.world.trace| == |w.trace| + |a|
    requires StopsAtFirstFailure(s1.world, s2, b)
    ensures StopsAtFirstFailure(w, s2, a + b)
  {
    if s2.err.Some? {
      var k2 := |s2.world.trace| - |s1.world.trace|;
      assert (a + b)[|a| + k2 - 1] == b[k2 - 1];
      forall i | 0 <= i < |a| + k2 - 1
        ensures (a + b)[i]
      {
        if i >= |a| {
          assert (a + b)[i] == b[i - |a|];
        }
      }
    } else {
      forall i | 0 <= i < |a + b|
        ensures (a + b)[i]
      {
        if i >= |a| {
          assert (a + b)[i] == b[i - |a|];
        }
      }
    }
  }

  /** Whether each command runs to completion. */
  function RanEach(run: CommandStep -> RunOutcome, steps: seq<CommandStep>): (ok: seq<bool>)
    ensures |ok| == |steps|
    ensures forall i :: 0 <= i < |steps| ==> (ok[i] <==> run(steps[i]).Ran?)
  {
    if steps == [] then [] else [run(steps[0]).Ran?] + RanEach(run, steps[1..])
  }

  /** A command list stops right after the first command that does not run to completion. */
  lemma ExecStepsStops(env: Env, w: World, steps: seq<CommandStep>)
    ensures StopsAtFirstFailure(w, ExecSteps(env, w, steps), RanEach(env.run, steps))
  {
    var r := RunSteps(steps, env.run);
    var ok := RanEach(env.run, steps);
    var s := ExecSteps(env, w, steps);
    assert |s.world.trace| - |w.trace| == |r.ran|;
    if r.err.Some? {
      var k := |r.ran|;
      assert r.ran[k - 1] == steps[k - 1];
      forall i | 0 <= i < k - 1
        ensures ok[i]
      {
        assert r.ran[i] == steps[i];
      }
    }
  }

  /** The text of `*fs.PathError` for a file that is not there. */
  function NoSuchFile(p: string): string
  {
    "open " + p + ": no such file or directory"
  }

  /**
   * Issues a file call: it is recorded, and it fails when the OS says so or,
   * for calls that need the file to exist, when it does not.
   */
  function Call(env: Env, w: World, c: FileCall): (r: (World, Option<string>))
    ensures r.0 == Record(w, File(c))
    ensures (c.Create? || c.WriteAll?) ==> r.1 == env.fault(c)
    ensures !(c.Create? || c.WriteAll?) && c.path !in w.disk ==> r.1 == Some(NoSuchFile(c.path))
    ensures !(c.Create? || c.WriteAll?) && c.path in w.disk ==> r.1 == env.fault(c)
  {
    var w' := Record(w, File(c));
    if !(c.Create? || c.WriteAll?) && c.path !in w.disk then (w', Some(NoSuchFile(c.path)))
    else (w', env.fault(c))
  }

  // ---------------------------------------------------------------------
  // What a write leaves in the file
  // ---------------------------------------------------------------------

  /**
   * Writing `text` at offset 0 of a file opened without O_TRUNC or O_APPEND:
   * the text replaces the first bytes and any older bytes beyond it remain.
   */
  function OverwriteAt0(prior: string, text: string): (r: string)
    ensures |r| == if |prior| > |text| then |prior| else |text|
    ensures r[..|text|] == text
    ensures |prior| > |text| ==> r[|text|..] == prior[|text|..]
  {
    if |prior| > |text| then text + prior[|text|..] else text
  }

  /** Overwriting twice with the same text is overwriting once. */
  lemma OverwriteIdempotent(prior: string, text: string)
    ensures OverwriteAt0(OverwriteAt0(prior, text), text) == OverwriteAt0(prior, text)
  {
  }

  /** Only when the old content is no longer than the text does the file end up holding just the text. */
  lemma OverwriteExact(prior: string, text: string)
    ensures OverwriteAt0(prior, text) == text <==> |prior| <= |text|
  {
  }
}

=== FILE: templates.dfy ===
/**
 * The two fixed source templates of global.go and their rendering.
 *
 * Each template is kept as the exact text of the Go constant, written as a
 * concatenation of short pieces; the pieces a reader cares about (the
 * static directory, the example route, the build settings and the text
 * around the port hole) have names of their own.
 */
module Templates {
  import GoFmt

  /** `s` occurs in `text` starting at offset `k`. */
  predicate OccursAt(text: string, s: string, k: int)
  {
    0 <= k <= |text| - |s| && text[k..k + |s|] == s
  }

  /** `s` occurs somewhere inside `text`. */
  ghost predicate Contains(text: string, s: string)
  {
    exists k :: OccursAt(text, s, k)
  }

  lemma ContainsEnd(a: string, s: string)
    ensures Contains(a + s, s)
  {
    assert (a + s)[|a|..|a| + |s|] == s;
    assert OccursAt(a + s, s, |a|);
  }

  /** Appending text keeps every occurrence. */
  lemma ContainsExtend(x: string, s: string, b: string)
    requires Contains(x, s)
    ensures Contains(x + b, s)
  {
    var k :| OccursAt(x, s, k);
    assert (x + b)[k..k + |s|] == x[k..k + |s|];
    assert OccursAt(x + b, s, k);
  }

  /** Prepending text keeps every occurrence. */
  lemma ContainsPrepend(a: string, x: string, s: string)
    requires Contains(x, s)
    ensures Contains(a + x, s)
  {
    var k :| OccursAt(x, s, k);
    assert (a + x)[|a| + k..|a| + k + |s|] == x[k..k + |s|];
    assert OccursAt(a + x, s, |a| + k);
  }

  /** The text around a hole, with the hole filled, occurs in the filled template. */
  lemma ContainsSplice(a: string, s: string, t: string, u: string, b: string)
    ensures Contains(a + s + t + (u + b), s + t + u)
  {
    assert a + s + t + (u + b) == a + (s + t + u) + b;
    ContainsEnd(a, s + t + u);
    ContainsExtend(a + (s + t + u), s + t + u, b);
  }

  /** The first and last parts of a concatenation of three. */
  lemma Ends(a: string, x: string, b: string)
    ensures (a + x + b)[..|a|] == a
    ensures (a + x + b)[|a + x + b| - |b|..] == b
  {
  }

  // ---------------------------------------------------------------------
  // DEFAULT_GO_CODE: the backend entry point
  // ---------------------------------------------------------------------

  const STATIC_CALL: string := "e.Static(\"/\", \"dist\")"
  const HELLO_ROUTE: string := "e.GET(\"/api/hello\""
  const START_OPEN: string := "e.Start(\""
  const START_CLOSE: string := "\")"

  const GO_IMPORTS: string :=
    "package main\n\n" +
    "import (\n\t\"net/http\"\n\n" +
    "\t\"github.com/labstack/" +
    "echo/v4\"\n" +
    "\t\"github.com/labstack/" +
    "echo/v4/middleware\"\n)\n" +
    "\nfunc main() {\n" +
    "\te := echo.New()\n\n\t"
  const GO_MIDDLEWARE: string :=
    "\n\te.Use(" +
    "middleware.Static(\"/" +
    "dist\"))\n\n\t"
  const GO_HANDLER: string :=
    ", func(ctx " +
    "echo.Context) error {\n" +
    "\t\treturn ctx.JSON(\n" +
    "\t\t\thttp.StatusOK, " +
    "echo.Map{\n" +
    "\t\t\t\t\"message\": \"Hello " +
    "World!\",\n\t\t\t},\n\t\t)\n" +
    "\t})\n\n\te.Logger.Fatal("
  const GO_END: string := ")\n}\n\t"

  /** Everything before the `%v` of DEFAULT_GO_CODE. */
  const GO_PREFIX: string :=
    GO_IMPORTS + STATIC_CALL + GO_MIDDLEWARE + HELLO_ROUTE + GO_HANDLER + START_OPEN

  /** Everything after the `%v` of DEFAULT_GO_CODE. */
  const GO_SUFFIX: string := START_CLOSE + GO_END

  /** global.go's DEFAULT_GO_CODE, character for character. */
  const DEFAULT_GO_CODE: string := GO_PREFIX + "%v" + GO_SUFFIX

  // ---------------------------------------------------------------------
  // DEFAULT_VITE_CODE: the frontend build-tool config
  // ---------------------------------------------------------------------

  const PROXY_OPEN: string := "'/api': 'http://localhost"
  const PROXY_CLOSE: string := "'"
  const OUT_DIR: string := "outDir: '../dist'"
  const EMPTY_OUT_DIR: string := "emptyOutDir: true"

  const VITE_HEAD: string :=
    "import { defineConfig " +
    "} from 'vite'\n" +
    "import { svelte } " +
    "from '@sveltejs/" +
    "vite-plugin-svelte'\n\n" +
    "// https://vite.dev/" +
    "config/\n" +
    "export default " +
    "defineConfig({\n" +
    "\tplugins: [svelte()],\n" +
    "\tbase: '/',\n" +
    "\tserver: {\n\t\tproxy: {\n" +
    "\t\t"
  const VITE_PROXY_END: string :=
    ", // Proxy API calls " +
    "to Echo\n\t\t}\n\t},\n" +
    "\tbuild: {\n\t\t"
  const VITE_END: string := ",\n\t}\n})\n\t"

  /** Everything before the `%v` of DEFAULT_VITE_CODE. */
  const VITE_PREFIX: string := VITE_HEAD + PROXY_OPEN

  /** Everything after the `%v` of DEFAULT_VITE_CODE. */
  const VITE_SUFFIX: string :=
    PROXY_CLOSE + VITE_PROXY_END + OUT_DIR + ",\n\t\t" + EMPTY_OUT_DIR + VITE_END

  /** global.go's DEFAULT_VITE_CODE, character for character. */
  const DEFAULT_VITE_CODE: string := VITE_PREFIX + "%v" + VITE_SUFFIX

  // ---------------------------------------------------------------------
  // No '%' outside the holes, one short literal at a time
  // ---------------------------------------------------------------------

  // The verifier checks `'%' !in s` for a string literal character by
  // character, and that cost grows steeply with the literal's length, so the
  // long pieces of the templates are checked in short slices and combined.

  lemma Piece0() ensures '%' !in "package main\n\n" {}
  lemma Piece1() ensures '%' !in "import (\n\t\"net/http\"\n\n" {}
  lemma Piece2() ensures '%' !in "\t\"github.com/labstack/" {}
  lemma Piece3() ensures '%' !in "echo/v4\"\n" {}
  lemma Piece4() ensures '%' !in "echo/v4/middleware\"\n)\n" {}
  lemma Piece5() ensures '%' !in "\nfunc main() {\n" {}
  lemma Piece6() ensures '%' !in "\te := echo.New()\n\n\t" {}
  lemma NoPercentGoImports() ensures '%' !in GO_IMPORTS
  {
    Piece0(); Piece1(); Piece2(); Piece3(); Piece4(); Piece5(); Piece6();
  }
  lemma Piece7() ensures '%' !in "\n\te.Use(" {}
  lemma Piece8() ensures '%' !in "middleware.Static(\"/" {}
  lemma Piece9() ensures '%' !in "dist\"))\n\n\t" {}
  lemma NoPercentGoMiddleware() ensures '%' !in GO_MIDDLEWARE
  {
    Piece7(); Piece8(); Piece9();
  }
  lemma Piece10() ensures '%' !in ", func(ctx " {}
  lemma Piece11() ensures '%' !in "echo.Context) error {\n" {}
  lemma Piece12() ensures '%' !in "\t\treturn ctx.JSON(\n" {}
  lemma Piece13() ensures '%' !in "\t\t\thttp.StatusOK, " {}
  lemma Piece14() ensures '%' !in "echo.Map{\n" {}
  lemma Piece15() ensures '%' !in "\t\t\t\t\"message\": \"Hello " {}
  lemma Piece16() ensures '%' !in "World!\",\n\t\t\t},\n\t\t)\n" {}
  lemma Piece17() ensures '%' !in "\t})\n\n\te.Logger.Fatal(" {}
  lemma NoPercentGoHandler() ensures '%' !in GO_HANDLER
  {
    Piece10(); Piece11(); Piece12(); Piece13(); Piece14(); Piece15(); Piece16(); Piece17();
  }
  lemma Piece18() ensures '%' !in "import { defineConfig " {}
  lemma Piece19() ensures '%' !in "} from 'vite'\n" {}
  lemma Piece20() ensures '%' !in "import { svelte } " {}
  lemma Piece21() ensures '%' !in "from '@sveltejs/" {}
  lemma Piece22() ensures '%' !in "vite-plugin-svelte'\n\n" {}
  lemma Piece23() ensures '%' !in "// https://vite.dev/" {}
  lemma Piece24() ensures '%' !in "config/\n" {}
  lemma Piece25() ensures '%' !in "export default " {}
  lemma Piece26() ensures '%' !in "defineConfig({\n" {}
  lemma Piece27() ensures '%' !in "\tplugins: [svelte()],\n" {}
  lemma Piece28() ensures '%' !in "\tbase: '/',\n" {}
  lemma Piece29() ensures '%' !in "\tserver: {\n\t\tproxy: {\n" {}
  lemma Piece30() ensures '%' !in "\t\t" {}
  lemma NoPercentViteHead() ensures '%' !in VITE_HEAD
  {
    Piece18(); Piece19(); Piece20(); Piece21(); Piece22(); Piece23(); Piece24(); Piece25(); Piece26(); Piece27(); Piece28(); Piece29(); Piece30();
  }
  lemma Piece31() ensures '%' !in ", // Proxy API calls " {}
  lemma Piece32() ensures '%' !in "to Echo\n\t\t}\n\t},\n" {}
  lemma Piece33() ensures '%' !in "\tbuild: {\n\t\t" {}
  lemma NoPercentViteProxyEnd() ensures '%' !in VITE_PROXY_END
  {
    Piece31(); Piece32(); Piece33();
  }
  lemma NoPercentStaticCall() ensures '%' !in STATIC_CALL {}
  lemma NoPercentHelloRoute() ensures '%' !in HELLO_ROUTE {}
  lemma NoPercentStartOpen() ensures '%' !in START_OPEN {}
  lemma NoPercentStartClose() ensures '%' !in START_CLOSE {}
  lemma NoPercentGoEnd() ensures '%' !in GO_END {}
  lemma NoPercentProxyOpen() ensures '%' !in PROXY_OPEN {}
  lemma NoPercentProxyClose() ensures '%' !in PROXY_CLOSE {}
  lemma NoPercentOutDir() ensures '%' !in OUT_DIR {}
  lemma NoPercentEmptyOutDir() ensures '%' !in EMPTY_OUT_DIR {}
  lemma NoPercentViteEnd() ensures '%' !in VITE_END {}
  lemma NoPercentIndent() ensures '%' !in ",\n\t\t" {}

  /** The only '%' of either template is the one of its `%v` hole. */
  lemma OneHoleEach()
    ensures '%' !in GO_PREFIX && '%' !in GO_SUFFIX
    ensures '%' !in VITE_PREFIX && '%' !in VITE_SUFFIX
  {
    NoPercentGoImports();
    NoPercentGoMiddleware();
    NoPercentGoHandler();
    NoPercentViteHead();
    NoPercentViteProxyEnd();
    NoPercentStaticCall();
    NoPercentHelloRoute();
    NoPercentStartOpen();
    NoPercentStartClose();
    NoPercentGoEnd();
    NoPercentProxyOpen();
    NoPercentProxyClose();
    NoPercentOutDir();
    NoPercentEmptyOutDir();
    NoPercentViteEnd();
    NoPercentIndent();
  }

  // ---------------------------------------------------------------------
  // Rendering
  // ---------------------------------------------------------------------

  /** `fmt.Sprintf(DEFAULT_GO_CODE, port)`: the port lands in the one hole. */
  function Backend(port: string): (text: string)
    ensures text == GO_PREFIX + port + GO_SUFFIX
  {
    OneHoleEach();
    GoFmt.SprintfOneHole(GO_PREFIX, GO_SUFFIX, port);
    GoFmt.Sprintf(DEFAULT_GO_CODE, port)
  }

  /** `fmt.Sprintf(DEFAULT_VITE_CODE, port)`: the port lands in the one hole. */
  function ViteConfig(port: string): (text: string)
    ensures text == VITE_PREFIX + port + VITE_SUFFIX
  {
    OneHoleEach();
    GoFmt.SprintfOneHole(VITE_PREFIX, VITE_SUFFIX, port);
    GoFmt.Sprintf(DEFAULT_VITE_CODE, port)
  }

  /** Reading the hole back out of a rendered backend. */
  function BackendHole(text: string): string
    requires |text| >= |GO_PREFIX| + |GO_SUFFIX|
  {
    text[|GO_PREFIX|..|text| - |GO_SUFFIX|]
  }

  /** Reading the hole back out of a rendered config. */
  function ViteHole(text: string): string
    requires |text| >= |VITE_PREFIX| + |VITE_SUFFIX|
  {
    text[|VITE_PREFIX|..|text| - |VITE_SUFFIX|]
  }

  /** Rendering is injective in the port: the hole reads back exactly. */
  lemma RenderRoundTrip(port: string)
    ensures BackendHole(Backend(port)) == port
    ensures ViteHole(ViteConfig(port)) == port
  {
  }

  /** The backend listens on the rendered port: it contains `e.Start("` + port + `")`. */
  lemma BackendListensOnPort(port: string)
    ensures Contains(Backend(port), START_OPEN + port + START_CLOSE)
  {
    var a := GO_IMPORTS + STATIC_CALL + GO_MIDDLEWARE + HELLO_ROUTE + GO_HANDLER;
    ContainsSplice(a, START_OPEN, port, START_CLOSE, GO_END);
  }

  /** The dev-server proxy forwards `/api` to `http://localhost` + port. */
  lemma ViteProxiesToPort(port: string)
    ensures Contains(ViteConfig(port), PROXY_OPEN + port + PROXY_CLOSE)
  {
    var b := VITE_PROXY_END + OUT_DIR + ",\n\t\t" + EMPTY_OUT_DIR + VITE_END;
    assert VITE_SUFFIX == PROXY_CLOSE + b;
    ContainsSplice(VITE_HEAD, PROXY_OPEN, port, PROXY_CLOSE, b);
  }

  /** Every rendered backend serves the static "dist" directory and routes "/api/hello". */
  lemma BackendFixedText(port: string)
    ensures Contains(Backend(port), STATIC_CALL)
    ensures Contains(Backend(port), HELLO_ROUTE)
  {
    ContainsEnd(GO_IMPORTS, STATIC_CALL);
    ContainsExtend(GO_IMPORTS + STATIC_CALL, STATIC_CALL, GO_MIDDLEWARE);
    ContainsExtend(GO_IMPORTS + STATIC_CALL + GO_MIDDLEWARE, STATIC_CALL, HELLO_ROUTE);
    ContainsEnd(GO_IMPORTS + STATIC_CALL + GO_MIDDLEWARE, HELLO_ROUTE);
    var h := GO_IMPORTS + STATIC_CALL + GO_MIDDLEWARE + HELLO_ROUTE;
    ContainsExtend(h, STATIC_CALL, GO_HANDLER);
    ContainsExtend(h, HELLO_ROUTE, GO_HANDLER);
    ContainsExtend(h + GO_HANDLER, STATIC_CALL, START_OPEN);
    ContainsExtend(h + GO_HANDLER, HELLO_ROUTE, START_OPEN);
    ContainsExtend(GO_PREFIX, STATIC_CALL, port);
    ContainsExtend(GO_PREFIX, HELLO_ROUTE, port);
    ContainsExtend(GO_PREFIX + port, STATIC_CALL, GO_SUFFIX);
    ContainsExtend(GO_PREFIX + port, HELLO_ROUTE, GO_SUFFIX);
  }

  /** Every rendered config builds into '../dist' and empties it first. */
  lemma ViteFixedText(port: string)
    ensures Contains(ViteConfig(port), OUT_DIR)
    ensures Contains(ViteConfig(port), EMPTY_OUT_DIR)
  {
    var a := PROXY_CLOSE + VITE_PROXY_END;
    ContainsEnd(a, OUT_DIR);
    ContainsExtend(a + OUT_DIR, OUT_DIR, ",\n\t\t");
    ContainsExtend(a + OUT_DIR + ",\n\t\t", OUT_DIR, EMPTY_OUT_DIR);
    ContainsEnd(a + OUT_DIR + ",\n\t\t", EMPTY_OUT_DIR);
    ContainsExtend(a + OUT_DIR + ",\n\t\t" + EMPTY_OUT_DIR, OUT_DIR, VITE_END);
    ContainsExtend(a + OUT_DIR + ",\n\t\t" + EMPTY_OUT_DIR, EMPTY_OUT_DIR, VITE_END);
    ContainsPrepend(VITE_PREFIX + port, VITE_SUFFIX, OUT_DIR);
    ContainsPrepend(VITE_PREFIX + port, VITE_SUFFIX, EMPTY_OUT_DIR);
  }

  /** Two renderings differ only inside the hole. */
  lemma OutsideHoleIndependentOfPort(p: string, q: string)
    ensures Backend(p)[..|GO_PREFIX|] == Backend(q)[..|GO_PREFIX|]
    ensures Backend(p)[|Backend(p)| - |GO_SUFFIX|..] == Backend(q)[|Backend(q)| - |GO_SUFFIX|..]
    ensures ViteConfig(p)[..|VITE_PREFIX|] == ViteConfig(q)[..|VITE_PREFIX|]
    ensures ViteConfig(p)[|ViteConfig(p)| - |VITE_SUFFIX|..] == ViteConfig(q)[|ViteConfig(q)| - |VITE_SUFFIX|..]
  {
    Ends(GO_PREFIX, p, GO_SUFFIX);
    Ends(GO_PREFIX, q, GO_SUFFIX);
    Ends(VITE_PREFIX, p, VITE_SUFFIX);
    Ends(VITE_PREFIX, q, VITE_SUFFIX);
  }
}

=== FILE: wrappers.dfy ===
/** Failure-carrying datatypes shared by the rest of the model. */
module Wrappers {

  /** A value that may be missing (Go's nil, or an `ok == false` lookup). */
  datatype Option<+T> = None | Some(value: T)

  /** A value or an error (Go's `(T, error)` return pair). */
  datatype Result<+T, +E> = Ok(value: T) | Err(error: E)
}
